=== FILE: README.md ===
# GRUB 2 configuration models in Dafny

A model of the core of the `cfa_grub2` library, which reads and edits GRUB 2
configuration files. It covers four parts:

- **Kernel command lines of `/etc/default/grub`** (`Default::KernelParams` and its
  `ParamTree`), in `kernel_params.dfy`.
  - A line is split into whitespace-separated tokens. Each token is split at its first
    `=` into a record tagged `keep`.
  - `add_parameter` inserts a record tagged `add` where a placer says.
  - `remove_parameter` tags the selected records `remove`. These tombstones stay in the
    list, and `data`, `parameter` and `serialize` only see the records not so tagged.
- **The `GRUB_TERMINAL` and `GRUB_SERIAL_COMMAND` accessors of `Default`**, in
  `terminal.dfy`. The key-value file behind them is modelled as a map from key to raw
  string value.
- **The boot-menu scanner of `GrubCfg`**, in `grub_cfg.dfy`. Generated `grub.cfg` text is
  read line by line.
  - A line matching `menuentry\s+'` records a boot entry and pushes its title.
  - A line matching `^\s*}\s*\n` pops a frame.
  - A line matching `submenu\s+'` pushes a submenu title.
  - Each entry's path is the open titles joined with `>`.
  - The three regular expressions are written out as predicates on characters. The title
    capture `'([^']+)'` is written out too.
- **The install-device list `/etc/default/grub_installdevice`** (`InstallDeviceParser`
  and `InstallDevice`), in `install_device.dfy`.
  - One device per line.
  - The special entries `activate` and `generic_mbr` are written at the end.

Shared pieces:

- `results.dfy` holds `Option` and `Result`.
- `text.dfy` holds the Ruby string operations the code relies on:
  - `split(/\s/)` with empty pieces dropped;
  - `Array#join`;
  - `String#lines`;
  - `String#strip`.
- `kernel_params_examples.dfy` and `grub_cfg_examples.dfy` work through the documented
  examples and the line shapes `grub-mkconfig` writes.

Ruby exceptions are modelled as `Err` results. Mutation of the model objects is modelled as
pure functions from the old state to the new one.

## Model

| member | source | states |
|---|---|---|
| Text.Words | lib/cfa/grub2/default.rb:244-245 | the tokens of a line contain no whitespace, are non-empty, and concatenate to the line with its whitespace removed |
| Text.WordsEmpty | lib/cfa/grub2/default.rb:244-245 | an empty line has no tokens |
| Text.WordsOfWord | lib/cfa/grub2/default.rb:244-245 | a non-empty string without whitespace is one token, itself |
| Text.WordsSplit | lib/cfa/grub2/default.rb:244-245 | the tokens of two strings joined by one whitespace character are the tokens of the first followed by those of the second, so a token never spans whitespace |
| Text.SplitSpaceAt | lib/cfa/grub2/default.rb:244 | splitting at single whitespace characters cuts at every one of them, empty pieces included |
| Text.NonEmpty | lib/cfa/grub2/default.rb:245 | the kept pieces are non-empty, are exactly the non-empty input pieces, and concatenate to the same text as the input |
| Text.NonEmptyAppend | lib/cfa/grub2/default.rb:245 | dropping empty pieces from a concatenation drops them from each part, so the kept pieces stay in input order |
| Text.WordsOfJoin | lib/cfa/grub2/default.rb:244-245 | splitting tokens joined by single spaces gives the tokens back |
| Text.Lines | lib/cfa/grub2/grub_cfg.rb:18 | `String#lines` pieces concatenate to the text; each is a line, and every piece but the last ends in a line feed |
| Text.LinesCons | lib/cfa/grub2/install_device.rb:16 | a first line ending in a line feed is the first piece, and the rest is split the same way |
| Text.LinesLast | lib/cfa/grub2/install_device.rb:16 | a last line without a line feed is one piece, and the empty text has none |
| Text.StripSnoc | lib/cfa/grub2/install_device.rb:16 | a trailing line feed or other whitespace does not change the stripped text |
| Text.LinesOfTerminated | lib/cfa/grub2/install_device.rb:16 | the lines of newline-terminated strings are those strings with their line feeds |
| Text.StripTerminated | lib/cfa/grub2/install_device.rb:16 | stripping a line with no whitespace at its ends removes exactly its line feed |
| KernelParams.ParseToken | lib/cfa/grub2/default.rb:246-253 | a token with no `=` is a flag keyed by the whole token; otherwise the key has no `=` and key, `=` and value rebuild the token; the record is tagged keep |
| KernelParams.ParseTokenSplit | lib/cfa/grub2/default.rb:246 | a token splits at its first `=` only, so the value keeps any further `=` |
| KernelParams.RenderParseToken | lib/cfa/grub2/default.rb:258-264 | rendering a parsed token gives the token back |
| KernelParams.NewTree | lib/cfa/grub2/default.rb:243-255 | a parsed line has one record per whitespace-separated token, record i being token i split at its first `=`, all tagged keep; an absent line parses as the empty one |
| KernelParams.Visible | lib/cfa/grub2/default.rb:269-271 | `data` holds no tombstone and is no longer than the full list |
| KernelParams.VisibleMembers | lib/cfa/grub2/default.rb:269-271 | `data` holds exactly the records not tagged remove |
| KernelParams.VisibleAround | lib/cfa/grub2/default.rb:269-271 | a record between two lists stays in place in `data` unless it is a tombstone, which vanishes |
| KernelParams.ParseRender | lib/cfa/grub2/default.rb:246-264 | a record whose key has no `=` reads back from its rendering as itself, tagged keep |
| KernelParams.ParseToString | lib/cfa/grub2/default.rb:243-267 | parsing what `to_string` wrote gives the visible records in order, tagged keep, when each renders as one word with no `=` in its key |
| KernelParams.SerializeReread | lib/cfa/grub2/default.rb:178-184 | re-reading a serialised line under the same key keeps the key and gives the visible parameters in order, none tombstoned |
| KernelParams.NewKernelParams | lib/cfa/grub2/default.rb:178-181 | a fresh object keeps its key and holds exactly the parse of its line, all of it visible |
| KernelParams.ReplaceLine | lib/cfa/grub2/default.rb:188-190 | replacing the line keeps the key and leaves exactly the fresh parse of the new line, with no tombstones |
| KernelParams.IsEmpty | lib/cfa/grub2/default.rb:193-195 | `empty?` holds exactly when serialising gives "", which is when nothing is visible or the only visible record is a flag with an empty key |
| KernelParams.SerializeParse | lib/cfa/grub2/default.rb:243-267 | serialising a parsed line gives its tokens joined by single spaces |
| KernelParams.SerializeParseNormalized | lib/cfa/grub2/default.rb:243-267 | a line already single-space separated survives parse then serialise unchanged |
| KernelParams.ParsedEmpty | lib/cfa/grub2/default.rb:193-195 | a parsed line is empty exactly when it has no token |
| KernelParams.ValuesOfCount | lib/cfa/grub2/default.rb:212-214 | the selected values are none iff no record has the key; one iff exactly one record does, and then that record's value; several iff two records do |
| KernelParams.Parameter | lib/cfa/grub2/default.rb:211-221 | the lookup is false iff the key is absent, true iff its only record is a flag, the string iff its only record has a value, and every value in order iff the key appears twice or more |
| KernelParams.InsertionPointSelects | lib/cfa/grub2/default.rb:225-226 | the new record goes at the end for the default placer, at the first selected record for before and replace, just past it for after, and at the end when nothing is selected |
| KernelParams.PlacePlaces | lib/cfa/grub2/default.rb:225-231 | the new record sits at the insertion point; every other old record is unchanged, and the record at the insertion point is unchanged too unless the placer replaces, in which case it is the record the matcher selects, now a tombstone |
| KernelParams.AddParameter | lib/cfa/grub2/default.rb:225-231 | exactly one record tagged add with the given key and value enters at the insertion point; every old record is unchanged except, for a replacing placer, the first visible record its matcher selects, which becomes a tombstone |
| KernelParams.AddParameterVisible | lib/cfa/grub2/default.rb:225-231 | the visible records afterwards are the old visible records with the new one placed before, after or instead of the first selected record, or at the end |
| KernelParams.AddParameterAppends | lib/cfa/grub2/default.rb:225 | with the default placer the new record is appended to the visible records |
| KernelParams.RemoveParameter | lib/cfa/grub2/default.rb:235-237 | only tags change: a record is a tombstone afterwards iff it was one or the matcher selects it |
| KernelParams.RemoveParameterVisible | lib/cfa/grub2/default.rb:235-237 | the visible records afterwards are the old ones without those the matcher selects |
| KernelParams.WithoutOnly | lib/cfa/grub2/default.rb:235-237 | when the matcher selects exactly one record of a view, removal drops that record and keeps the rest in order |
| KernelParams.RemoveParameterIdempotent | lib/cfa/grub2/default.rb:235-237 | removing twice with one matcher is removing once |
| KernelParamsExamples.ExampleLookup | lib/cfa/grub2/default.rb:203-209 | on `quite console=S0 console=S1 vga=0x400`, `quite` is true, `verbose` false, `vga` is `0x400` and `console` is `[S0, S1]` |
| KernelParamsExamples.ExampleEdits | spec/grub2_default_spec.rb:173-212 | adding `verbose` after `quite` and then `silent`, replacing `console=S1` by `console=S2` and removing `vga` serialises as `quite verbose console=S0 console=S2 silent` |
| Terminal.Name | lib/cfa/grub2/default.rb:114 | every option name is a single non-empty word without whitespace |
| Terminal.OptionNamed | lib/cfa/grub2/default.rb:114 | a word names an option iff it is that option's name |
| Terminal.OptionsNamed | lib/cfa/grub2/default.rb:127-132 | the words convert iff every word names an option, giving those options in order; otherwise the error carries the first word that names none |
| Terminal.ReadTerminal | lib/cfa/grub2/default.rb:122-133 | an absent or empty value reads as nil; otherwise it succeeds iff every word of it names an option, giving the options in order, and fails naming the first word that names none |
| Terminal.WriteTerminal | lib/cfa/grub2/default.rb:141-149 | the write fails with an invalid-value error iff some value is not an option's name; otherwise GRUB_TERMINAL holds the values joined by single spaces and every other key is left alone |
| Terminal.WriteNames | lib/cfa/grub2/default.rb:141-149 | writing the names of options always succeeds and stores exactly those names joined by single spaces |
| Terminal.WriteReadTerminal | lib/cfa/grub2/default.rb:122-149 | writing options and reading them back gives the options, with the empty list reading back as nil |
| Terminal.OptionsNamedNames | lib/cfa/grub2/default.rb:127-132 | the names of options convert back to those options |
| Terminal.Union | lib/cfa/grub2/default.rb:158 | array union holds exactly the elements of both lists, each once, in the order of their first occurrence in the first list followed by the second |
| Terminal.Dedup | lib/cfa/grub2/default.rb:158 | deduplication keeps exactly the elements of its input, each once, in the order of their first occurrence |
| Terminal.DedupSnoc | lib/cfa/grub2/default.rb:158 | one more element at the end of the input leaves the earlier result alone and is appended only when new |
| Terminal.DedupOfDistinct | lib/cfa/grub2/default.rb:158 | a list without duplicates is left as it is |
| Terminal.WithSerial | lib/cfa/grub2/default.rb:158 | adding serial gives the old options each once in first-occurrence order, followed by serial unless it was already there; a duplicate-free list keeps its order exactly |
| Terminal.SetSerialConsole | lib/cfa/grub2/default.rb:157-160 | fails iff the stored terminal value does not read; otherwise it stores the command, and GRUB_TERMINAL then holds the names of the old options with serial added, space-joined, which read back as those options |
| Terminal.SerialConsole | lib/cfa/grub2/default.rb:162-164 | the getter gives the stored serial command iff one is stored |
| GrubCfg.TitleText | lib/cfa/grub2/grub_cfg.rb:38 | a captured title is non-empty and holds no single quote |
| GrubCfg.OpenerFromMatches | lib/cfa/grub2/grub_cfg.rb:20 | the opener search succeeds iff the keyword, whitespace and a quote occur at some position |
| GrubCfg.TitleFromLeftmost | lib/cfa/grub2/grub_cfg.rb:38 | the title capture is nil iff no position matches, and otherwise is the title of the leftmost match |
| GrubCfg.CloserFromMatches | lib/cfa/grub2/grub_cfg.rb:21 | the closer search succeeds iff some line start is followed by whitespace, `}`, and whitespace containing a line feed |
| GrubCfg.TitleOnOpener | lib/cfa/grub2/grub_cfg.rb:20-23 | a title is only captured on a line the opener pattern matches |
| GrubCfg.Step | lib/cfa/grub2/grub_cfg.rb:19-24 | an entry line adds one entry whose path is the open titles and its own joined by `>`; otherwise a closer pops (never below empty), a submenu pushes, and any other line changes nothing |
| GrubCfg.Run | lib/cfa/grub2/grub_cfg.rb:16-26 | a scan never holds more entries or open frames than it has read lines |
| GrubCfg.RunFromRun | lib/cfa/grub2/grub_cfg.rb:18-25 | scanning more lines continues from the state earlier lines left |
| GrubCfg.Parse | lib/cfa/grub2/grub_cfg.rb:16-44 | `parse` gives one entry per entry line, in order, with that line's title and a path ending in the title |
| GrubCfg.Serialize | lib/cfa/grub2/grub_cfg.rb:28-31 | writing the generated file always fails |
| GrubCfg.Empty | lib/cfa/grub2/grub_cfg.rb:33-35 | an empty configuration has no entries |
| GrubCfg.BootEntries | lib/cfa/grub2/grub_cfg.rb:65-67 | `boot_entries` is one entry per entry line, in order, with that line's title |
| GrubCfg.Sections | lib/cfa/grub2/grub_cfg.rb:54-56 | `sections` is the title of every boot entry, in order |
| GrubCfg.RunTitles | lib/cfa/grub2/grub_cfg.rb:16-26 | the entries are exactly one per entry line, in order, with that line's title |
| GrubCfg.SectionsAreEntryTitles | lib/cfa/grub2/grub_cfg.rb:54-56 | `sections` equals the titles of the single-quoted `menuentry` lines, whatever the nesting |
| GrubCfg.RunExtends | lib/cfa/grub2/grub_cfg.rb:16-26 | later lines never change entries already found |
| GrubCfg.StepKeepsTitledPaths | lib/cfa/grub2/grub_cfg.rb:37-44 | one scanned line keeps every entry's path ending with that entry's title |
| GrubCfg.PathsEndWithTitle | lib/cfa/grub2/grub_cfg.rb:37-44 | every path ends with its entry's title |
| GrubCfg.TopLevelPath | lib/cfa/grub2/grub_cfg.rb:37-44 | an entry outside any frame has its title as its whole path |
| GrubCfg.StackDepth | lib/cfa/grub2/grub_cfg.rb:17-24 | the stack is never deeper than the number of lines that pushed |
| GrubCfg.NoQuoteNoOpener | lib/cfa/grub2/grub_cfg.rb:20-22 | a line without a single quote neither records an entry nor opens a submenu |
| GrubCfg.CloserOnEmpty | lib/cfa/grub2/grub_cfg.rb:21 | a closer with nothing open changes nothing |
| GrubCfg.UnquotedBlockPops | lib/cfa/grub2/grub_cfg.rb:61-64 | a double-quoted block records nothing, yet its closing brace pops the innermost open frame |
| GrubCfgExamples.EntryLineTitle | lib/cfa/grub2/grub_cfg.rb:20 | an indented `menuentry 'T' {` line is an entry line with title T |
| GrubCfgExamples.SubmenuLineTitle | lib/cfa/grub2/grub_cfg.rb:22-23 | an indented `submenu 'T' {` line is a submenu line with title T, neither an entry nor a closer |
| GrubCfgExamples.CloseLineKind | lib/cfa/grub2/grub_cfg.rb:21 | an indented `}` line is a closer and not an entry |
| GrubCfgExamples.NestedSubmenus | lib/cfa/grub2/grub_cfg.rb:16-44 | an entry inside two nested submenus gets the path `A>B>T`, and the three braces close every frame |
| GrubCfgExamples.UnquotedInSubmenu | lib/cfa/grub2/grub_cfg.rb:16-26 | an unquoted block inside a submenu leaves its `}` to close the submenu, so the next entry is top level |
| InstallDevice.Delete | lib/cfa/grub2/install_device.rb:61 | `Array#delete` removes every occurrence and keeps every other element |
| InstallDevice.DeleteAppend | lib/cfa/grub2/install_device.rb:61 | deleting from a concatenation deletes from both parts |
| InstallDevice.Parse | lib/cfa/grub2/install_device.rb:14-17 | no parsed entry is empty, and the empty file gives none |
| InstallDevice.ParseLine | lib/cfa/grub2/install_device.rb:14-17 | a first line contributes its stripped text when that is not empty, then the remaining lines are read the same way |
| InstallDevice.ParseLastLine | lib/cfa/grub2/install_device.rb:14-17 | a last line without a line feed gives its stripped text when that is not empty, and nothing otherwise |
| InstallDevice.Body | lib/cfa/grub2/install_device.rb:25-26 | the ordinary entries are exactly the entries other than the two specials |
| InstallDevice.Specials | lib/cfa/grub2/install_device.rb:25-26 | each special is listed iff it was present, at most two entries |
| InstallDevice.Serialize | lib/cfa/grub2/install_device.rb:21-35 | a list with no ordinary and no special entries writes the empty file |
| InstallDevice.SerializeLines | lib/cfa/grub2/install_device.rb:21-35 | the file is the ordinary entries and then the specials present, each on its own line, unless the only ordinary entry is the empty string |
| InstallDevice.BodyLines | lib/cfa/grub2/install_device.rb:28-29 | the joined ordinary entries plus a final line feed unless empty are those entries each line-terminated, for any list but a single empty entry |
| InstallDevice.SpecialLines | lib/cfa/grub2/install_device.rb:31-32 | the specials are written `activate` first, each once |
| InstallDevice.ParseSerialize | lib/cfa/grub2/install_device.rb:15-35 | reading back what was written gives the ordinary entries in order, then `activate` and `generic_mbr` once each if present |
| InstallDevice.Empty | lib/cfa/grub2/install_device.rb:37-40 | a new list is empty, is written as the empty file, and reads back as itself |
| InstallDevice.AddDevice | lib/cfa/grub2/install_device.rb:54-56 | the device is present afterwards; a listed device changes nothing, otherwise it is appended |
| InstallDevice.AddDeviceIdempotent | lib/cfa/grub2/install_device.rb:54-56 | adding a device twice is adding it once |
| InstallDevice.RemoveDevice | lib/cfa/grub2/install_device.rb:60-62 | the device is gone, every other entry is kept, and an absent device changes nothing |
| InstallDevice.AddRemove | lib/cfa/grub2/install_device.rb:54-62 | removing after adding undoes the add, and adding after removing puts the device last |
| InstallDevice.DeviceList | lib/cfa/grub2/install_device.rb:66-72 | `devices` lists exactly the entries that are not special |
| InstallDevice.DeviceListIsBody | lib/cfa/grub2/install_device.rb:66-72 | `devices` are the ordinary entries `serialize` writes first, in the same order |
| InstallDevice.HasGenericMbr | lib/cfa/grub2/install_device.rb:76-78 | `generic_mbr?` holds iff `generic_mbr` is among the specials written at the end of the file |
| InstallDevice.HasActivate | lib/cfa/grub2/install_device.rb:94-96 | `activate?` holds iff `activate` is among the specials written at the end of the file |
| InstallDevice.SetSpecial | lib/cfa/grub2/install_device.rb:82-90 | enabling appends the special word only when absent and otherwise changes nothing; disabling removes every occurrence; membership of every other word is unchanged |
| InstallDevice.SetSpecialKeepsDevices | lib/cfa/grub2/install_device.rb:82-108 | toggling a special word leaves `devices` unchanged, order included |
| InstallDevice.SetGenericMbr | lib/cfa/grub2/install_device.rb:82-90 | `generic_mbr?` then answers the value set; `activate?` and `devices` are unchanged |
| InstallDevice.SetActivate | lib/cfa/grub2/install_device.rb:100-108 | `activate?` then answers the value set; `generic_mbr?` and `devices` are unchanged |

## Left out

- Loading and saving files (`BaseModel`, `AugeasParser`, file handlers) and `Default#save` / `Default#load` are left out. The defaults file is a map from key to string: `value_for` is a lookup and `generic_set` an update.
- Placer and matcher classes live outside this repository, so the placer's effect is an assumption of this model:
  - the first visible record the matcher selects is used;
  - `Before` and `Replace` insert there, `After` inserts just past it;
  - `Replace` tombstones the selected record;
  - nothing selected means append.
- Matchers are modelled as plain functions of key and value.
- `BooleanValue` settings and the simple `attributes` getters of `Default` are left out. They are thin wrappers over the key-value map.
- `device_map.rb` is not part of this model.
- Ruby symbols versus strings: `terminal=` is given the names of the symbols passed. A string value that is not a symbol is not distinguished.
- `InstallDevice.Parse`: strips whitespace and NUL from both ends of each line, as `String#strip` does in current Ruby. Other Ruby versions treat NUL differently.
- `InstallDevice.ParseSerialize`: only for clean entries (non-empty, one line, no surrounding whitespace). Other entries do not survive a write and re-read by `InstallDeviceParser` either.
- `InstallDevice.SerializeLines`: not for a list whose only ordinary entry is the empty string, which `InstallDeviceParser.serialize` writes as no line at all.
- `KernelParams.ParseToString`, `KernelParams.SerializeReread`: only for records that render as one word and have no `=` in their key; `ParamTree#to_string` and `ParamTree.new` lose or re-split the others too.
- `GrubCfgExamples.SubmenuLineTitle`, `GrubCfgExamples.NestedSubmenus`, `GrubCfgExamples.UnquotedInSubmenu`: submenu titles exclude `y` and `}`. This keeps the line clear of the entry and closer patterns without a general search proof; the scanner itself has no such restriction.
- Sorbet type signatures are left out. So are the `dup` calls, since pure functions never modify their arguments.

=== FILE: grub_cfg.dfy ===
/** The boot-menu scanner of `GrubCfg`: generated `grub.cfg` text is read line by line,
    keeping a stack of open titles, and every single-quoted `menuentry` line yields a boot
    entry carrying its title and its path through the enclosing submenus. The three line
    patterns are written out as the regular expressions they are:
    `menuentry\s+'`, `^\s*}\s*\n` and `submenu\s+'`, and the title is the capture of
    `\s*KEYWORD\s+'([^']+)'.*` in its leftmost match. */
module GrubCfg {
  import opened Results
  import opened Text

  /** Index of the first non-whitespace character at or after `i`, or `|s|`. */
  function SkipSpace(s: string, i: nat): (j: nat)
    requires i <= |s|
    ensures i <= j <= |s|
    ensures forall k :: i <= k < j ==> IsSpace(s[k])
    ensures j < |s| ==> !IsSpace(s[j])
    decreases |s| - i
  {
    if i == |s| || !IsSpace(s[i]) then i else SkipSpace(s, i + 1)
  }

  /** Index of the first single quote at or after `i`, or `|s|`. */
  function QuoteFrom(s: string, i: nat): (j: nat)
    requires i <= |s|
    ensures i <= j <= |s|
    ensures forall k :: i <= k < j ==> s[k] != '\''
    ensures j < |s| ==> s[j] == '\''
    decreases |s| - i
  {
    if i == |s| || s[i] == '\'' then i else QuoteFrom(s, i + 1)
  }

  /** `w` occurs in `s` at index `i`. */
  predicate HasAt(s: string, w: string, i: nat)
  {
    i + |w| <= |s| && s[i..i + |w|] == w
  }

  /** `KEYWORD\s+'` matches at `q`: the keyword, at least one whitespace character, and a
      single quote right after the whitespace run. */
  predicate OpenerAt(s: string, kw: string, q: nat)
  {
    HasAt(s, kw, q) && var k := SkipSpace(s, q + |kw|); q + |kw| < k < |s| && s[k] == '\''
  }

  /** `KEYWORD\s+'([^']+)'` matches at `q`: an opener whose quote is followed by at least one
      character and then a closing quote. */
  predicate TitleAt(s: string, kw: string, q: nat)
  {
    OpenerAt(s, kw, q) && var k := SkipSpace(s, q + |kw|); k + 1 < QuoteFrom(s, k + 1) < |s|
  }

  /** The text between the quotes of the title matched at `q`. */
  function TitleText(s: string, kw: string, q: nat): (t: string)
    requires TitleAt(s, kw, q)
    ensures t != "" && '\'' !in t
  {
    var k := SkipSpace(s, q + |kw|);
    s[k + 1..QuoteFrom(s, k + 1)]
  }

  /** Whether an opener for `kw` occurs at or after `i`. */
  function OpenerFrom(s: string, kw: string, i: nat): bool
    requires i <= |s|
    decreases |s| - i
  {
    if OpenerAt(s, kw, i) then true
    else if i == |s| then false
    else OpenerFrom(s, kw, i + 1)
  }

  /** The search finds an opener exactly when one occurs. */
  lemma {:induction false} OpenerFromMatches(s: string, kw: string, i: nat)
    requires i <= |s|
    ensures OpenerFrom(s, kw, i) <==> exists q :: i <= q <= |s| && OpenerAt(s, kw, q)
    decreases |s| - i
  {
    if !OpenerAt(s, kw, i) && i < |s| {
      OpenerFromMatches(s, kw, i + 1);
      assert forall q :: i <= q <= |s| && OpenerAt(s, kw, q) ==> i + 1 <= q;
    }
  }

  /** The title of the leftmost title match at or after `i`; none when nothing matches
      (Ruby's `nil` from `String#[]`). */
  function TitleFrom(s: string, kw: string, i: nat): Option<string>
    requires i <= |s|
    decreases |s| - i
  {
    if TitleAt(s, kw, i) then Some(TitleText(s, kw, i))
    else if i == |s| then None
    else TitleFrom(s, kw, i + 1)
  }

  /** `q` is the leftmost position at or after `i` where the title pattern matches. */
  predicate LeftmostTitleAt(s: string, kw: string, i: nat, q: nat)
  {
    i <= q <= |s| && TitleAt(s, kw, q) && forall p :: i <= p < q ==> !TitleAt(s, kw, p)
  }

  /** The search yields the title of the leftmost match, and nothing when no position
      matches. */
  lemma {:induction false} TitleFromLeftmost(s: string, kw: string, i: nat)
    requires i <= |s|
    ensures TitleFrom(s, kw, i).None? <==> forall q :: i <= q <= |s| ==> !TitleAt(s, kw, q)
    ensures TitleFrom(s, kw, i).Some? ==>
              exists q :: LeftmostTitleAt(s, kw, i, q) && TitleFrom(s, kw, i).value == TitleText(s, kw, q)
    decreases |s| - i
  {
    if TitleAt(s, kw, i) {
      assert LeftmostTitleAt(s, kw, i, i);
    } else if i < |s| {
      TitleFromLeftmost(s, kw, i + 1);
      var t := TitleFrom(s, kw, i + 1);
      assert TitleFrom(s, kw, i) == t;
      if t.Some? {
        var q :| LeftmostTitleAt(s, kw, i + 1, q) && t.value == TitleText(s, kw, q);
        assert LeftmostTitleAt(s, kw, i, q);
      } else {
        assert forall q :: i <= q <= |s| && TitleAt(s, kw, q) ==> i + 1 <= q;
      }
    }
  }

  /** `^\s*}\s*\n` matches with its anchor at `i`: `i` starts a line, the first
      non-whitespace character from `i` is a closing brace, and the whitespace run after
      the brace holds a line feed. */
  predicate CloserAt(s: string, i: nat)
  {
    i <= |s| && (i == 0 || s[i - 1] == '\n')
    && var j := SkipSpace(s, i); j < |s| && s[j] == '}' && '\n' in s[j + 1..SkipSpace(s, j + 1)]
  }

  /** Whether the closer pattern matches anywhere at or after `i`. */
  function CloserFrom(s: string, i: nat): bool
    requires i <= |s|
    decreases |s| - i
  {
    if CloserAt(s, i) then true
    else if i == |s| then false
    else CloserFrom(s, i + 1)
  }

  /** The search finds a closer exactly when the pattern matches somewhere. */
  lemma {:induction false} CloserFromMatches(s: string, i: nat)
    requires i <= |s|
    ensures CloserFrom(s, i) <==> exists q :: i <= q <= |s| && CloserAt(s, q)
    decreases |s| - i
  {
    if CloserAt(s, i) {
      assert i <= i <= |s| && CloserAt(s, i);
    } else if i < |s| {
      CloserFromMatches(s, i + 1);
      assert CloserFrom(s, i) == CloserFrom(s, i + 1);
      if CloserFrom(s, i + 1) {
        var q :| i + 1 <= q <= |s| && CloserAt(s, q);
        assert i <= q <= |s| && CloserAt(s, q);
      } else {
        forall q | i <= q <= |s|
          ensures !CloserAt(s, q)
        {
          if q != i {
            assert i + 1 <= q <= |s|;
          }
        }
      }
    }
  }

  const EntryKeyword := "menuentry"
  const SubmenuKeyword := "submenu"

  /** The line holds `menuentry\s+'`. */
  predicate IsEntryLine(line: string)
  {
    OpenerFrom(line, EntryKeyword, 0)
  }

  /** The line holds `submenu\s+'`. */
  predicate IsSubmenuLine(line: string)
  {
    OpenerFrom(line, SubmenuKeyword, 0)
  }

  /** The line is a standalone closing brace. */
  predicate IsCloserLine(line: string)
  {
    CloserFrom(line, 0)
  }

  /** The title captured after `kw` in a line, if the title pattern matches. */
  function Title(line: string, kw: string): Option<string>
  {
    TitleFrom(line, kw, 0)
  }

  /** A title is found only on a line the opener pattern matches, and it is non-empty and
      free of single quotes. */
  lemma TitleOnOpener(line: string, kw: string)
    ensures Title(line, kw).Some? ==> OpenerFrom(line, kw, 0)
    ensures Title(line, kw).Some? ==> Title(line, kw).value != "" && '\'' !in Title(line, kw).value
  {
    TitleFromLeftmost(line, kw, 0);
    OpenerFromMatches(line, kw, 0);
  }

  /** A boot entry: its title (none when the quoted title is empty or unterminated) and its
      path, the open titles and its own joined with `>`. */
  datatype BootEntry = BootEntry(title: Option<string>, path: string)

  /** The scanner state: the titles of the open frames, innermost last, and the entries
      found so far. */
  datatype Scan = Scan(stack: seq<Option<string>>, entries: seq<BootEntry>)

  /** The frames as `Array#join` renders them, a missing title as the empty string. */
  function Rendered(stack: seq<Option<string>>): (r: seq<string>)
    ensures |r| == |stack| && forall i :: 0 <= i < |stack| ==> r[i] == stack[i].GetOr("")
  {
    seq(|stack|, i requires 0 <= i < |stack| => stack[i].GetOr(""))
  }

  /** `submenu.join(">")`. */
  function PathOf(stack: seq<Option<string>>): string
  {
    Join(Rendered(stack), ">")
  }

  /** One line of `parse`: an entry line pushes its title and records an entry with the
      path of the stack so pushed; otherwise a closer line pops a frame (nothing on an empty
      stack), and otherwise a submenu line pushes its title. Any other line changes nothing. */
  function Step(sc: Scan, line: string): (r: Scan)
    ensures IsEntryLine(line) ==>
              var t := Title(line, EntryKeyword);
              && r.stack == sc.stack + [t]
              && |r.entries| == |sc.entries| + 1 && r.entries[..|sc.entries|] == sc.entries
              && r.entries[|sc.entries|].title == t
              && r.entries[|sc.entries|].path
                 == if |sc.stack| == 0 then t.GetOr("") else PathOf(sc.stack) + ">" + t.GetOr("")
    ensures !IsEntryLine(line) ==> r.entries == sc.entries
    ensures !IsEntryLine(line) && IsCloserLine(line) ==>
              r.stack == if |sc.stack| == 0 then [] else sc.stack[..|sc.stack| - 1]
    ensures !IsEntryLine(line) && !IsCloserLine(line) && IsSubmenuLine(line) ==>
              r.stack == sc.stack + [Title(line, SubmenuKeyword)]
    ensures !IsEntryLine(line) && !IsCloserLine(line) && !IsSubmenuLine(line) ==> r == sc
  {
    if IsEntryLine(line) then
      var t := Title(line, EntryKeyword);
      var stack := sc.stack + [t];
      assert Rendered(stack) == Rendered(sc.stack) + [t.GetOr("")];
      JoinSnoc(Rendered(sc.stack), t.GetOr(""), ">");
      Scan(stack, sc.entries + [BootEntry(t, PathOf(stack))])
    else if IsCloserLine(line) then
      Scan(if |sc.stack| == 0 then [] else sc.stack[..|sc.stack| - 1], sc.entries)
    else if IsSubmenuLine(line) then
      Scan(sc.stack + [Title(line, SubmenuKeyword)], sc.entries)
    else sc
  }

  /** The state after scanning `lines` from an empty stack and no entries: at most one
      entry and at most one open frame per line. */
  function Run(lines: seq<string>): (r: Scan)
    ensures |r.entries| <= |lines| && |r.stack| <= |lines|
    decreases |lines|
  {
    if |lines| == 0 then Scan([], [])
    else Step(Run(lines[..|lines| - 1]), lines[|lines| - 1])
  }

  /** Scanning `lines` front to back from the state `sc`. */
  function RunFrom(sc: Scan, lines: seq<string>): Scan
    decreases |lines|
  {
    if |lines| == 0 then sc else RunFrom(Step(sc, lines[0]), lines[1..])
  }

  /** Scanning more lines continues from the state the earlier lines left. */
  lemma {:induction false} RunFromRun(before: seq<string>, after: seq<string>)
    ensures RunFrom(Run(before), after) == Run(before + after)
    decreases |after|
  {
    if |after| == 0 {
      assert before + after == before;
    } else {
      var next := before + [after[0]];
      RunFromStep(before, after);
      RunFromRun(next, after[1..]);
      MoveHead(before, after);
    }
  }

  /** Moving the first pending line to the end of the scanned ones keeps the whole list. */
  lemma MoveHead(before: seq<string>, after: seq<string>)
    requires |after| > 0
    ensures before + [after[0]] + after[1..] == before + after
  {
    assert [after[0]] + after[1..] == after;
  }

  /** Moving the first pending line over to the scanned ones. */
  lemma RunFromStep(before: seq<string>, after: seq<string>)
    requires |after| > 0
    ensures RunFrom(Run(before), after) == RunFrom(Run(before + [after[0]]), after[1..])
  {
    RunSnoc(before, after[0]);
  }

  /** Scanning one more line is one more step. */
  lemma RunSnoc(lines: seq<string>, line: string)
    ensures Run(lines + [line]) == Step(Run(lines), line)
  {
    assert (lines + [line])[..|lines|] == lines;
  }

  /** `Parser.parse`: the boot entries of a generated configuration, in order: one per
      entry line, carrying that line's title, with a path ending in the title. */
  function Parse(text: string): (r: seq<BootEntry>)
    ensures |r| == |EntryTitles(Lines(text))|
    ensures forall i :: 0 <= i < |r| ==> r[i].title == EntryTitles(Lines(text))[i]
    ensures forall e :: e in r ==> EndsWith(e.path, e.title.GetOr(""))
  {
    RunTitles(Lines(text));
    PathsEndWithTitle(Lines(text));
    Run(Lines(text)).entries
  }

  datatype SerializeError = NotImplemented

  /** `Parser.serialize`: the generated file is never written back, whatever the entries. */
  function Serialize(entries: seq<BootEntry>): (r: Result<string, SerializeError>)
    ensures r.Err?
  {
    Err(NotImplemented)
  }

  /** `Parser.empty`: an empty configuration has no entries. */
  function Empty(): (r: seq<BootEntry>)
    ensures |r| == 0
  {
    []
  }

  /** `boot_entries`: the parsed entries as they are, so again one per entry line with
      its title. */
  function BootEntries(text: string): (r: seq<BootEntry>)
    ensures |r| == |EntryTitles(Lines(text))|
    ensures forall i :: 0 <= i < |r| ==> r[i].title == EntryTitles(Lines(text))[i]
  {
    Parse(text)
  }

  /** `sections`: the title of every boot entry, in order. */
  function Sections(text: string): (r: seq<Option<string>>)
    ensures |r| == |BootEntries(text)|
    ensures forall i :: 0 <= i < |r| ==> r[i] == BootEntries(text)[i].title
  {
    var es := BootEntries(text);
    seq(|es|, i requires 0 <= i < |es| => es[i].title)
  }

  // Properties of the scan.

  /** The titles of the entry lines among `lines`, in order: a reference for the entries
      that does not look at the stack. */
  function EntryTitles(lines: seq<string>): seq<Option<string>>
    decreases |lines|
  {
    if |lines| == 0 then []
    else
      var last := lines[|lines| - 1];
      EntryTitles(lines[..|lines| - 1]) + (if IsEntryLine(last) then [Title(last, EntryKeyword)] else [])
  }

  /** The entries found are exactly the entry lines, in order, with their titles. */
  lemma {:induction false} RunTitles(lines: seq<string>)
    ensures |Run(lines).entries| == |EntryTitles(lines)|
    ensures forall i :: 0 <= i < |EntryTitles(lines)| ==> Run(lines).entries[i].title == EntryTitles(lines)[i]
    decreases |lines|
  {
    if |lines| > 0 {
      RunTitles(lines[..|lines| - 1]);
    }
  }

  /** `sections` lists the titles of the single-quoted `menuentry` lines, in order. */
  lemma SectionsAreEntryTitles(text: string)
    ensures Sections(text) == EntryTitles(Lines(text))
  {
    RunTitles(Lines(text));
  }

  /** Scanning more lines never changes the entries already found. */
  lemma {:induction false} RunExtends(lines: seq<string>, k: nat)
    requires k <= |lines|
    ensures Run(lines[..k]).entries <= Run(lines).entries
    decreases |lines|
  {
    if k < |lines| {
      var init := lines[..|lines| - 1];
      RunExtends(init, k);
      assert init[..k] == lines[..k];
      StepExtends(Run(init), lines[|lines| - 1]);
    } else {
      assert lines[..k] == lines;
    }
  }

  /** A step never changes the entries already found. */
  lemma StepExtends(sc: Scan, line: string)
    ensures sc.entries <= Step(sc, line).entries
  {
  }

  /** `s` ends with `t`. */
  predicate EndsWith(s: string, t: string)
  {
    |t| <= |s| && s[|s| - |t|..] == t
  }

  /** Every entry's path ends with its own title, and is the title alone for an entry
      outside any frame. */
  lemma {:induction false} PathsEndWithTitle(lines: seq<string>)
    ensures forall e :: e in Run(lines).entries ==> EndsWith(e.path, e.title.GetOr(""))
    decreases |lines|
  {
    if |lines| > 0 {
      PathsEndWithTitle(lines[..|lines| - 1]);
      StepKeepsTitledPaths(Run(lines[..|lines| - 1]), lines[|lines| - 1]);
    }
  }

  /** One step keeps every path ending with its entry's title. */
  lemma StepKeepsTitledPaths(sc: Scan, line: string)
    requires forall e :: e in sc.entries ==> EndsWith(e.path, e.title.GetOr(""))
    ensures forall e :: e in Step(sc, line).entries ==> EndsWith(e.path, e.title.GetOr(""))
  {
    if IsEntryLine(line) {
      var r := Step(sc, line);
      var e := r.entries[|sc.entries|];
      var t := e.title.GetOr("");
      if |sc.stack| == 0 {
        EndsWithAppend("", t);
        assert "" + t == t;
      } else {
        EndsWithAppend(PathOf(sc.stack) + ">", t);
      }
      assert r.entries == sc.entries + [e];
    }
  }

  lemma EndsWithAppend(p: string, t: string)
    ensures EndsWith(p + t, t)
  {
    assert (p + t)[|p|..] == t;
  }

  /** An entry line met with no open frame gets its title as its whole path. */
  lemma TopLevelPath(sc: Scan, line: string)
    requires |sc.stack| == 0 && IsEntryLine(line)
    ensures Step(sc, line).entries[|sc.entries|].path == Title(line, EntryKeyword).GetOr("")
  {
  }

  /** Number of lines among `lines` that push a frame. */
  function Pushes(lines: seq<string>): nat
    decreases |lines|
  {
    if |lines| == 0 then 0
    else
      var last := lines[|lines| - 1];
      Pushes(lines[..|lines| - 1])
      + if IsEntryLine(last) || (!IsCloserLine(last) && IsSubmenuLine(last)) then 1 else 0
  }

  /** The stack never holds more frames than there were lines that opened one. */
  lemma {:induction false} StackDepth(lines: seq<string>)
    ensures |Run(lines).stack| <= Pushes(lines)
    decreases |lines|
  {
    if |lines| > 0 {
      StackDepth(lines[..|lines| - 1]);
    }
  }

  /** A line without a single quote neither records an entry nor opens a frame. */
  lemma NoQuoteNoOpener(line: string, kw: string)
    requires '\'' !in line
    ensures !OpenerFrom(line, kw, 0)
  {
    OpenerFromMatches(line, kw, 0);
  }

  /** A closer line on an empty stack changes nothing. */
  lemma CloserOnEmpty(sc: Scan, line: string)
    requires |sc.stack| == 0 && !IsEntryLine(line) && IsCloserLine(line)
    ensures Step(sc, line) == sc
  {
  }

  /** A block whose opening line has no single quote (a double-quoted `menuentry`, say)
      records nothing, yet its closing brace pops the innermost open frame. */
  lemma UnquotedBlockPops(sc: Scan, opening: string, closing: string)
    requires '\'' !in opening && !IsCloserLine(opening)
    requires '\'' !in closing && IsCloserLine(closing)
    ensures Step(Step(sc, opening), closing).entries == sc.entries
    ensures Step(Step(sc, opening), closing).stack
            == if |sc.stack| == 0 then [] else sc.stack[..|sc.stack| - 1]
  {
    NoQuoteNoOpener(opening, EntryKeyword);
    NoQuoteNoOpener(opening, SubmenuKeyword);
    NoQuoteNoOpener(closing, EntryKeyword);
  }
}

=== FILE: grub_cfg_examples.dfy ===
/** Worked examples of the boot-menu scanner on the line shapes `grub-mkconfig` writes:
    an indented `menuentry '...' {` or `submenu '...' {` line and an indented `}` line. */
module GrubCfgExamples {
  import opened Results
  import opened Text
  import opened GrubCfg

  /** Indentation: spaces and tabs only. */
  predicate Blank(indent: string)
  {
    forall i :: 0 <= i < |indent| ==> indent[i] == ' ' || indent[i] == '\t'
  }

  /** A usable quoted title: non-empty, without single quotes or line feeds. */
  predicate Quotable(t: string)
  {
    |t| > 0 && '\'' !in t && '\n' !in t
  }

  function EntryLine(indent: string, t: string): string
  {
    indent + "menuentry '" + t + "' {"
  }

  function SubmenuLine(indent: string, t: string): string
  {
    indent + "submenu '" + t + "' {"
  }

  function CloseLine(indent: string): string
  {
    indent + "}"
  }

  /** No occurrence of a word can start on a character other than its first. */
  lemma NotAt(s: string, w: string, p: nat)
    requires |w| > 0 && p < |s| && s[p] != w[0]
    ensures !HasAt(s, w, p)
  {
  }

  /** A word one of whose characters is missing from `s` occurs nowhere in it. */
  lemma MissingChar(s: string, w: string, c: char)
    requires c in w && c !in s
    ensures forall p: nat :: !HasAt(s, w, p)
  {
  }

  /** The title pattern for `kw` matches first at `q` with title `t` when `q` is preceded by
      blanks and followed by the keyword, one space, and `t` between single quotes. */
  lemma TitleOfShape(s: string, kw: string, q: nat, t: string)
    requires |kw| > 0 && kw[0] != ' ' && kw[0] != '\t'
    requires Quotable(t)
    requires q + |kw| + 2 + |t| < |s|
    requires Blank(s[..q])
    requires s[q..q + |kw|] == kw
    requires s[q + |kw|] == ' ' && s[q + |kw| + 1] == '\''
    requires s[q + |kw| + 2..q + |kw| + 2 + |t|] == t
    requires s[q + |kw| + 2 + |t|] == '\''
    ensures OpenerFrom(s, kw, 0)
    ensures Title(s, kw) == Some(t)
  {
    TitleAtShape(s, kw, q, t);
    forall p | 0 <= p < q
      ensures !TitleAt(s, kw, p)
    {
      assert s[..q][p] == s[p];
      NotAt(s, kw, p);
    }
    TitleFromFirst(s, kw, 0, q);
    OpenerFromFirst(s, kw, 0, q);
  }

  lemma TitleAtShape(s: string, kw: string, q: nat, t: string)
    requires Quotable(t)
    requires q + |kw| + 2 + |t| < |s|
    requires s[q..q + |kw|] == kw
    requires s[q + |kw|] == ' ' && s[q + |kw| + 1] == '\''
    requires s[q + |kw| + 2..q + |kw| + 2 + |t|] == t
    requires s[q + |kw| + 2 + |t|] == '\''
    ensures TitleAt(s, kw, q) && TitleText(s, kw, q) == t
  {
    var k := q + |kw| + 1;
    assert SkipSpace(s, k) == k;
    assert SkipSpace(s, k - 1) == k;
    forall i | k + 1 <= i < k + 1 + |t|
      ensures s[i] != '\''
    {
      assert s[i] == s[k + 1..k + 1 + |t|][i - k - 1];
    }
    assert QuoteFrom(s, k + 1) == k + 1 + |t|;
  }

  /** The leftmost title match at or after `i` is the first position that matches. */
  lemma {:induction false} TitleFromFirst(s: string, kw: string, i: nat, q: nat)
    requires i <= q <= |s| && TitleAt(s, kw, q)
    requires forall p :: i <= p < q ==> !TitleAt(s, kw, p)
    ensures TitleFrom(s, kw, i) == Some(TitleText(s, kw, q))
    decreases q - i
  {
    if i < q {
      TitleFromFirst(s, kw, i + 1, q);
    }
  }

  lemma {:induction false} OpenerFromFirst(s: string, kw: string, i: nat, q: nat)
    requires i <= q <= |s| && OpenerAt(s, kw, q)
    ensures OpenerFrom(s, kw, i)
    decreases q - i
  {
    if i < q && !OpenerAt(s, kw, i) {
      OpenerFromFirst(s, kw, i + 1, q);
    }
  }

  /** The pieces of a line made of indentation, a keyword, a quoted title and a tail. */
  lemma ShapeOf(indent: string, kw: string, t: string, tail: string)
    ensures var s := indent + kw + " '" + t + tail;
            var q := |indent|;
            && q + |kw| + 2 + |t| + |tail| == |s|
            && s[..q] == indent
            && s[q..q + |kw|] == kw
            && s[q + |kw|] == ' ' && s[q + |kw| + 1] == '\''
            && s[q + |kw| + 2..q + |kw| + 2 + |t|] == t
            && s[q + |kw| + 2 + |t|..] == tail
  {
    var a := indent + kw;
    var b := a + " '";
    var c := b + t;
    var s := c + tail;
    assert s[..|c|] == c && s[|c|..] == tail;
    assert c[..|b|] == b && c[|b|..] == t;
    assert b[..|a|] == a && b[|a|] == ' ' && b[|a| + 1] == '\'';
    assert a[..|indent|] == indent && a[|indent|..] == kw;
  }

  /** An entry line is an entry line whose title is the quoted text. */
  lemma EntryLineTitle(indent: string, t: string)
    requires Blank(indent) && Quotable(t)
    ensures IsEntryLine(EntryLine(indent, t) + "\n")
    ensures Title(EntryLine(indent, t) + "\n", EntryKeyword) == Some(t)
  {
    ShapeOf(indent, EntryKeyword, t, "' {\n");
    assert EntryLine(indent, t) + "\n" == indent + EntryKeyword + " '" + t + "' {\n";
    var s := EntryLine(indent, t) + "\n";
    assert s[|indent| + |EntryKeyword| + 2 + |t|..][0] == '\'';
    TitleOfShape(s, EntryKeyword, |indent|, t);
  }

  /** A submenu line whose title has neither `y` nor `}` is no entry line and no closer,
      and is a submenu line whose title is the quoted text. */
  lemma SubmenuLineTitle(indent: string, t: string)
    requires Blank(indent) && Quotable(t) && 'y' !in t && '}' !in t
    ensures !IsEntryLine(SubmenuLine(indent, t) + "\n")
    ensures !IsCloserLine(SubmenuLine(indent, t) + "\n")
    ensures IsSubmenuLine(SubmenuLine(indent, t) + "\n")
    ensures Title(SubmenuLine(indent, t) + "\n", SubmenuKeyword) == Some(t)
  {
    ShapeOf(indent, SubmenuKeyword, t, "' {\n");
    assert SubmenuLine(indent, t) + "\n" == indent + SubmenuKeyword + " '" + t + "' {\n";
    var s := SubmenuLine(indent, t) + "\n";
    assert s[|indent| + |SubmenuKeyword| + 2 + |t|..][0] == '\'';
    TitleOfShape(s, SubmenuKeyword, |indent|, t);
    SubmenuLineChars(indent, t);
    MissingChar(s, EntryKeyword, 'y');
    OpenerFromMatches(s, EntryKeyword, 0);
    NoBraceNoCloser(s);
  }

  /** The characters of a submenu line are those of its indentation, its keyword, its title
      and its punctuation. */
  lemma SubmenuLineChars(indent: string, t: string)
    requires Blank(indent) && 'y' !in t && '}' !in t
    ensures 'y' !in SubmenuLine(indent, t) + "\n" && '}' !in SubmenuLine(indent, t) + "\n"
  {
    var s := SubmenuLine(indent, t) + "\n";
    assert s == indent + (SubmenuKeyword + " '") + t + "' {\n";
    forall c | c == 'y' || c == '}'
      ensures c !in s
    {
      assert c !in indent by { assert forall i :: 0 <= i < |indent| ==> indent[i] != c; }
      assert c !in SubmenuKeyword + " '";
      assert c !in "' {\n";
    }
  }

  /** A line without a closing brace is no closer. */
  lemma NoBraceNoCloser(s: string)
    requires '}' !in s
    ensures !IsCloserLine(s)
  {
    CloserFromMatches(s, 0);
  }

  /** A brace line is a closer and nothing else. */
  lemma CloseLineKind(indent: string)
    requires Blank(indent)
    ensures !IsEntryLine(CloseLine(indent) + "\n")
    ensures IsCloserLine(CloseLine(indent) + "\n")
  {
    var s := CloseLine(indent) + "\n";
    var q := |indent|;
    assert s == indent + "}\n";
    assert s[..q] == indent && s[q] == '}' && s[q + 1] == '\n' && |s| == q + 2;
    assert '\'' !in s by {
      assert forall k :: 0 <= k < |s| ==> s[k] != '\'';
    }
    NoQuoteNoOpener(s, EntryKeyword);
    BlankSkip(s, q);
    assert SkipSpace(s, q + 2) == q + 2;
    assert SkipSpace(s, q + 1) == q + 2;
    assert s[q + 1..q + 2] == "\n";
    assert CloserAt(s, 0);
  }

  /** Skipping whitespace over blank indentation stops right after it. */
  lemma BlankSkip(s: string, q: nat)
    requires q < |s| && Blank(s[..q]) && !IsSpace(s[q])
    ensures SkipSpace(s, 0) == q
  {
    forall k | 0 <= k < q
      ensures IsSpace(s[k])
    {
      assert s[..q][k] == s[k];
    }
    SkipOver(s, 0, q);
  }

  lemma {:induction false} SkipOver(s: string, i: nat, q: nat)
    requires i <= q < |s| && !IsSpace(s[q])
    requires forall k :: i <= k < q ==> IsSpace(s[k])
    ensures SkipSpace(s, i) == q
    decreases q - i
  {
    if i < q {
      SkipOver(s, i + 1, q);
    }
  }

  lemma StepEntry(sc: Scan, indent: string, t: string)
    requires Blank(indent) && Quotable(t)
    ensures Step(sc, EntryLine(indent, t) + "\n")
            == Scan(sc.stack + [Some(t)],
                    sc.entries + [BootEntry(Some(t), if |sc.stack| == 0 then t else PathOf(sc.stack) + ">" + t)])
  {
    EntryLineTitle(indent, t);
  }

  lemma StepSubmenu(sc: Scan, indent: string, t: string)
    requires Blank(indent) && Quotable(t) && 'y' !in t && '}' !in t
    ensures Step(sc, SubmenuLine(indent, t) + "\n") == Scan(sc.stack + [Some(t)], sc.entries)
  {
    SubmenuLineTitle(indent, t);
  }

  lemma StepClose(sc: Scan, indent: string)
    requires Blank(indent)
    ensures Step(sc, CloseLine(indent) + "\n")
            == Scan(if |sc.stack| == 0 then [] else sc.stack[..|sc.stack| - 1], sc.entries)
  {
    CloseLineKind(indent);
  }

  lemma PathOfTwo(a: string, b: string)
    ensures PathOf([Some(a), Some(b)]) == a + ">" + b
  {
    assert Rendered([Some(a), Some(b)]) == [a, b];
    assert [a, b][1..] == [b];
    assert Join([b], ">") == b;
    assert Join([a, b], ">") == a + ">" + Join([b], ">");
  }

  lemma NestedEntryStep(a: string, b: string, t: string, indent: string)
    requires Quotable(t) && Blank(indent)
    ensures Step(Scan([Some(a), Some(b)], []), EntryLine(indent, t) + "\n")
            == Scan([Some(a), Some(b), Some(t)], [BootEntry(Some(t), a + ">" + b + ">" + t)])
  {
    StepEntry(Scan([Some(a), Some(b)], []), indent, t);
    PathOfTwo(a, b);
  }

  lemma PopStep(stack: seq<Option<string>>, x: Option<string>, es: seq<BootEntry>, indent: string)
    requires Blank(indent)
    ensures Step(Scan(stack + [x], es), CloseLine(indent) + "\n") == Scan(stack, es)
  {
    StepClose(Scan(stack + [x], es), indent);
    assert (stack + [x])[..|stack|] == stack;
  }

  lemma RunOfDisplay(lines: seq<string>)
    ensures Run(lines) == RunFrom(Scan([], []), lines)
  {
    RunFromRun([], lines);
    assert [] + lines == lines;
  }

  /** An entry inside two nested submenus gets both submenu titles, outer first, in its
      path; after the three closing braces no frame is open. Any blank indentation works. */
  lemma NestedSubmenus(a: string, b: string, t: string, i0: string, i1: string, i2: string)
    requires Quotable(a) && 'y' !in a && '}' !in a
    requires Quotable(b) && 'y' !in b && '}' !in b
    requires Quotable(t)
    requires Blank(i0) && Blank(i1) && Blank(i2)
    ensures Run([SubmenuLine(i0, a) + "\n", SubmenuLine(i1, b) + "\n", EntryLine(i2, t) + "\n",
                 CloseLine(i2) + "\n", CloseLine(i1) + "\n", CloseLine(i0) + "\n"])
            == Scan([], [BootEntry(Some(t), a + ">" + b + ">" + t)])
  {
    var l0, l1, l2 := SubmenuLine(i0, a) + "\n", SubmenuLine(i1, b) + "\n", EntryLine(i2, t) + "\n";
    var l3, l4, l5 := CloseLine(i2) + "\n", CloseLine(i1) + "\n", CloseLine(i0) + "\n";
    var es := [BootEntry(Some(t), a + ">" + b + ">" + t)];
    var s0, s1, s2 := Scan([], []), Scan([Some(a)], []), Scan([Some(a), Some(b)], []);
    var s3, s4, s5, s6 := Scan([Some(a), Some(b), Some(t)], es), Scan([Some(a), Some(b)], es), Scan([Some(a)], es), Scan([], es);
    var ss, ls := [s0, s1, s2, s3, s4, s5, s6], [l0, l1, l2, l3, l4, l5];
    NestedSteps(a, b, t, i0, i1, i2, ss, ls);
    RunOfDisplay(ls);
    RunFromChain(ss, ls);
  }

  /** Each line of the nested example leads from one listed state to the next. */
  lemma NestedSteps(a: string, b: string, t: string, i0: string, i1: string, i2: string,
                    ss: seq<Scan>, ls: seq<string>)
    requires Quotable(a) && 'y' !in a && '}' !in a
    requires Quotable(b) && 'y' !in b && '}' !in b
    requires Quotable(t)
    requires Blank(i0) && Blank(i1) && Blank(i2)
    requires ls == [SubmenuLine(i0, a) + "\n", SubmenuLine(i1, b) + "\n", EntryLine(i2, t) + "\n",
                    CloseLine(i2) + "\n", CloseLine(i1) + "\n", CloseLine(i0) + "\n"]
    requires var es := [BootEntry(Some(t), a + ">" + b + ">" + t)];
             ss == [Scan([], []), Scan([Some(a)], []), Scan([Some(a), Some(b)], []),
                    Scan([Some(a), Some(b), Some(t)], es), Scan([Some(a), Some(b)], es),
                    Scan([Some(a)], es), Scan([], es)]
    ensures |ss| == |ls| + 1
    ensures forall i :: 0 <= i < |ls| ==> Step(ss[i], ls[i]) == ss[i + 1]
  {
    var es := [BootEntry(Some(t), a + ">" + b + ">" + t)];
    forall i | 0 <= i < |ls|
      ensures Step(ss[i], ls[i]) == ss[i + 1]
    {
      if i == 0 {
        StepSubmenu(ss[0], i0, a);
      } else if i == 1 {
        StepSubmenu(ss[1], i1, b);
      } else if i == 2 {
        NestedEntryStep(a, b, t, i2);
      } else if i == 3 {
        PopStep([Some(a), Some(b)], Some(t), es, i2);
      } else if i == 4 {
        PopStep([Some(a)], Some(b), es, i1);
      } else {
        PopStep([], Some(a), es, i0);
      }
    }
  }

  /** Scanning a list of lines walks through the given states when each line leads from
      one state to the next. */
  lemma {:induction false} RunFromChain(ss: seq<Scan>, ls: seq<string>)
    requires |ss| == |ls| + 1
    requires forall i :: 0 <= i < |ls| ==> Step(ss[i], ls[i]) == ss[i + 1]
    ensures RunFrom(ss[0], ls) == ss[|ls|]
    decreases |ls|
  {
    if |ls| > 0 {
      RunFromChain(ss[1..], ls[1..]);
    }
  }

  /** A line with neither a single quote nor a closing brace changes nothing. */
  lemma StepInert(sc: Scan, line: string)
    requires '\'' !in line && '}' !in line
    ensures Step(sc, line) == sc
  {
    NoQuoteNoOpener(line, EntryKeyword);
    NoQuoteNoOpener(line, SubmenuKeyword);
    NoBraceNoCloser(line);
  }

  /** A block opened by a line without single quotes (a double-quoted `menuentry`, say)
      inside a submenu records nothing, but its closing brace closes the submenu's frame, so
      the next single-quoted entry of that submenu gets its title alone as its path. */
  lemma UnquotedInSubmenu(a: string, t: string, hint: string, i0: string, i1: string)
    requires Quotable(a) && 'y' !in a && '}' !in a
    requires Quotable(t)
    requires '\'' !in hint && '}' !in hint
    requires Blank(i0) && Blank(i1)
    ensures Run([SubmenuLine(i0, a) + "\n", hint, CloseLine(i1) + "\n", EntryLine(i1, t) + "\n"]).entries
            == [BootEntry(Some(t), t)]
  {
    var es := [BootEntry(Some(t), t)];
    var ss := [Scan([], []), Scan([Some(a)], []), Scan([Some(a)], []), Scan([], []), Scan([Some(t)], es)];
    var ls := [SubmenuLine(i0, a) + "\n", hint, CloseLine(i1) + "\n", EntryLine(i1, t) + "\n"];
    UnquotedSteps(a, t, hint, i0, i1, ss, ls);
    RunOfDisplay(ls);
    RunFromChain(ss, ls);
  }

  /** Each line of the unquoted-block example leads from one listed state to the next. */
  lemma UnquotedSteps(a: string, t: string, hint: string, i0: string, i1: string,
                      ss: seq<Scan>, ls: seq<string>)
    requires Quotable(a) && 'y' !in a && '}' !in a
    requires Quotable(t)
    requires '\'' !in hint && '}' !in hint
    requires Blank(i0) && Blank(i1)
    requires ls == [SubmenuLine(i0, a) + "\n", hint, CloseLine(i1) + "\n", EntryLine(i1, t) + "\n"]
    requires ss == [Scan([], []), Scan([Some(a)], []), Scan([Some(a)], []), Scan([], []),
                    Scan([Some(t)], [BootEntry(Some(t), t)])]
    ensures |ss| == |ls| + 1
    ensures forall i :: 0 <= i < |ls| ==> Step(ss[i], ls[i]) == ss[i + 1]
  {
    forall i | 0 <= i < |ls|
      ensures Step(ss[i], ls[i]) == ss[i + 1]
    {
      if i == 0 {
        StepSubmenu(ss[0], i0, a);
      } else if i == 1 {
        StepInert(ss[1], hint);
      } else if i == 2 {
        PopStep([], Some(a), [], i1);
      } else {
        StepEntry(ss[3], i1, t);
      }
    }
  }
}

=== FILE: install_device.dfy ===
/** The list of boot-loader install devices (`/etc/default/grub_installdevice`): one entry
    per line, with the special entries `activate` and `generic_mbr` kept at the end of the
    file. */
module InstallDevice {
  import opened Text

  type Devices = seq<string>

  const Activate := "activate"
  const GenericMbr := "generic_mbr"

  /** `Array#delete`: every occurrence of `w` removed, the rest kept in order. */
  function Delete(d: Devices, w: string): (r: Devices)
    ensures w !in r
    ensures forall x :: x in r <==> x in d && x != w
    ensures |r| <= |d|
    ensures w !in d ==> r == d
  {
    if |d| == 0 then []
    else if d[0] == w then Delete(d[1..], w)
    else [d[0]] + Delete(d[1..], w)
  }

  /** Deleting from a concatenation deletes from both parts. */
  lemma {:induction false} DeleteAppend(a: Devices, b: Devices, w: string)
    ensures Delete(a + b, w) == Delete(a, w) + Delete(b, w)
    decreases |a|
  {
    if |a| == 0 {
      assert a + b == b;
    } else {
      assert (a + b)[1..] == a[1..] + b;
      DeleteAppend(a[1..], b, w);
    }
  }

  /** Deleting twice is deleting once, and deletions of two words commute. */
  lemma {:induction false} DeleteCommutes(d: Devices, v: string, w: string)
    ensures Delete(Delete(d, v), w) == Delete(Delete(d, w), v)
    decreases |d|
  {
    if |d| > 0 {
      DeleteCommutes(d[1..], v, w);
    }
  }

  /** `parse`: the lines of the file with surrounding whitespace stripped, empty ones
      dropped. */
  function Parse(text: string): (r: Devices)
    ensures forall i :: 0 <= i < |r| ==> |r[i]| > 0
    ensures |text| == 0 ==> r == []
  {
    NonEmpty(StripEach(Lines(text)))
  }

  function StripEach(ls: seq<string>): (r: seq<string>)
    ensures |r| == |ls| && forall i :: 0 <= i < |ls| ==> r[i] == Strip(ls[i])
  {
    if |ls| == 0 then [] else [Strip(ls[0])] + StripEach(ls[1..])
  }

  /** Reading a first line: its stripped text is kept when it is not empty, and the
      lines after it are read the same way. */
  lemma ParseLine(l: string, rest: string)
    requires '\n' !in l
    ensures Parse(l + "\n" + rest) == (if |Strip(l)| == 0 then [] else [Strip(l)]) + Parse(rest)
  {
    LinesCons(l, rest);
    StripEachCons(l + "\n", Lines(rest));
    StripSnoc(l, '\n');
    NonEmptyCons(Strip(l), StripEach(Lines(rest)));
  }

  /** Reading a last line with no line feed after it: its stripped text, when not empty. */
  lemma ParseLastLine(l: string)
    requires '\n' !in l
    ensures Parse(l) == if |Strip(l)| == 0 then [] else [Strip(l)]
  {
    LinesLast(l);
    if |l| > 0 {
      assert StripEach([l]) == [Strip(l)];
      NonEmptySingle(Strip(l));
    } else {
      assert Strip(l) == [];
    }
  }

  lemma StripEachCons(x: string, ls: seq<string>)
    ensures StripEach([x] + ls) == [Strip(x)] + StripEach(ls)
  {
    assert ([x] + ls)[1..] == ls;
  }

  /** `empty`: a new file lists nothing and is written as nothing. */
  function Empty(): (r: Devices)
    ensures |r| == 0 && |Serialize(r)| == 0
    ensures Parse(Serialize(r)) == r
  {
    []
  }

  /** The ordinary entries of `d`: both special words removed. */
  function Body(d: Devices): (r: Devices)
    ensures forall x :: x in r <==> x in d && x != Activate && x != GenericMbr
  {
    Delete(Delete(d, Activate), GenericMbr)
  }

  /** The special entries present in `d`, each once, `activate` first. */
  function Specials(d: Devices): (r: Devices)
    ensures Activate in r <==> Activate in d
    ensures GenericMbr in r <==> GenericMbr in d
    ensures |r| <= 2
  {
    (if Activate in d then [Activate] else []) + (if GenericMbr in d then [GenericMbr] else [])
  }

  /** `serialize`: the ordinary entries one per line (nothing when they join to the empty
      string), then `activate` if it was present, then `generic_mbr` if it was present. */
  function Serialize(d: Devices): (r: string)
    ensures Body(d) == [] && Specials(d) == [] ==> r == ""
  {
    var res := Join(Body(d), "\n");
    (if res == "" then res else res + "\n")
    + (if Activate in d then Activate + "\n" else "")
    + (if GenericMbr in d then GenericMbr + "\n" else "")
  }

  /** An entry that survives a round trip: non-empty, one line, no surrounding whitespace. */
  predicate Clean(x: string)
  {
    |x| > 0 && '\n' !in x && !IsStripChar(x[0]) && !IsStripChar(x[|x| - 1])
  }

  /** The file written is the ordinary entries and then the specials, each followed by a
      line feed. The one exception is a list whose only ordinary entry is the empty string,
      which `InstallDeviceParser.serialize` writes as no line at all. */
  lemma SerializeLines(d: Devices)
    requires Body(d) != [""]
    ensures Serialize(d) == Concat(Terminated(Body(d) + Specials(d)))
  {
    var body, specials := Body(d), Specials(d);
    var res := Join(body, "\n");
    var head := if res == "" then res else res + "\n";
    var a := if Activate in d then Activate + "\n" else "";
    var g := if GenericMbr in d then GenericMbr + "\n" else "";
    calc {
      Serialize(d);
      head + a + g;
      head + (a + g);
      { BodyLines(body); SpecialLines(d); }
      Concat(Terminated(body)) + Concat(Terminated(specials));
      { ConcatAppend(Terminated(body), Terminated(specials)); }
      Concat(Terminated(body) + Terminated(specials));
      { TerminatedAppend(body, specials); }
      Concat(Terminated(body + specials));
    }
  }

  lemma BodyLines(body: Devices)
    requires body != [""]
    ensures var res := Join(body, "\n");
            (if res == "" then res else res + "\n") == Concat(Terminated(body))
  {
    if |body| == 0 {
      assert Terminated(body) == [];
    } else {
      JoinNewlines(body);
      JoinStart(body, "\n");
    }
  }

  lemma SpecialLines(d: Devices)
    ensures Concat(Terminated(Specials(d)))
            == (if Activate in d then Activate + "\n" else "") + (if GenericMbr in d then GenericMbr + "\n" else "")
  {
    var a := if Activate in d then [Activate] else [];
    var g := if GenericMbr in d then [GenericMbr] else [];
    TerminatedAppend(a, g);
    ConcatAppend(Terminated(a), Terminated(g));
    SingleLine(a);
    SingleLine(g);
  }

  /** The terminated form of at most one line. */
  lemma SingleLine(xs: seq<string>)
    requires |xs| <= 1
    ensures Concat(Terminated(xs)) == if |xs| == 0 then "" else xs[0] + "\n"
  {
    if |xs| == 1 {
      assert Terminated(xs) == [xs[0] + "\n"];
    }
  }

  lemma TerminatedAppend(a: seq<string>, b: seq<string>)
    ensures Terminated(a + b) == Terminated(a) + Terminated(b)
  {
  }

  /** A join with a non-empty separator is empty only for no elements or one empty one. */
  lemma JoinStart(ss: seq<string>, sep: string)
    requires |ss| >= 1 && ss != [""] && |sep| > 0
    ensures Join(ss, sep) != ""
  {
    if |ss| == 1 {
      assert ss == [ss[0]];
    } else {
      assert |Join(ss, sep)| >= |sep|;
    }
  }

  /** Reading back what was written for clean entries gives the ordinary entries in order,
      then `activate` once if it was present, then `generic_mbr` once if it was present. */
  lemma ParseSerialize(d: Devices)
    requires forall i :: 0 <= i < |d| ==> Clean(d[i])
    ensures Parse(Serialize(d)) == Body(d) + Specials(d)
  {
    var xs := Body(d) + Specials(d);
    CleanWritten(d);
    CleanBody(d);
    calc {
      Parse(Serialize(d));
      { SerializeLines(d); }
      NonEmpty(StripEach(Lines(Concat(Terminated(xs)))));
      { LinesOfTerminated(xs); }
      NonEmpty(StripEach(Terminated(xs)));
      { StripEachTerminated(xs); }
      NonEmpty(xs);
      { NonEmptyOfWords(xs); }
      xs;
    }
  }

  /** Clean entries never leave a lone empty ordinary entry. */
  lemma CleanBody(d: Devices)
    requires forall i :: 0 <= i < |d| ==> Clean(d[i])
    ensures Body(d) != [""]
  {
    if |Body(d)| == 1 {
      assert Body(d)[0] in d;
    }
  }

  /** Every line written for clean entries is clean. */
  lemma CleanWritten(d: Devices)
    requires forall i :: 0 <= i < |d| ==> Clean(d[i])
    ensures var xs := Body(d) + Specials(d); forall i :: 0 <= i < |xs| ==> Clean(xs[i])
  {
    var xs := Body(d) + Specials(d);
    forall i | 0 <= i < |xs|
      ensures Clean(xs[i])
    {
      assert xs[i] in Body(d) || xs[i] in Specials(d);
    }
  }

  /** Stripping clean lines with their line feeds gives the lines. */
  lemma StripEachTerminated(xs: seq<string>)
    requires forall i :: 0 <= i < |xs| ==> Clean(xs[i])
    ensures StripEach(Terminated(xs)) == xs
  {
    var ts := Terminated(xs);
    var ss := StripEach(ts);
    forall i | 0 <= i < |xs|
      ensures ss[i] == xs[i]
    {
      var x := xs[i];
      assert ts[i] == x + "\n";
      assert Clean(x);
      StripTerminated(x);
    }
  }

  /** `add_device`: the device is appended unless already listed. */
  function AddDevice(d: Devices, dev: string): (r: Devices)
    ensures dev in r
    ensures forall x :: x in r <==> x in d || x == dev
    ensures dev in d ==> r == d
    ensures dev !in d ==> |r| == |d| + 1 && r[..|d|] == d
  {
    if dev in d then d else d + [dev]
  }

  /** Adding a device twice is adding it once. */
  lemma AddDeviceIdempotent(d: Devices, dev: string)
    ensures AddDevice(AddDevice(d, dev), dev) == AddDevice(d, dev)
  {
  }

  /** `remove_device`: every occurrence of the device removed. */
  function RemoveDevice(d: Devices, dev: string): (r: Devices)
    ensures dev !in r
    ensures forall x :: x in r <==> x in d && x != dev
    ensures dev !in d ==> r == d
  {
    Delete(d, dev)
  }

  /** Removing then adding a device puts it last; adding then removing drops it. */
  lemma AddRemove(d: Devices, dev: string)
    ensures RemoveDevice(AddDevice(d, dev), dev) == RemoveDevice(d, dev)
    ensures AddDevice(RemoveDevice(d, dev), dev) == RemoveDevice(d, dev) + [dev]
  {
    if dev !in d {
      DeleteAppend(d, [dev], dev);
    }
  }

  /** `devices`: the entries other than `generic_mbr` and `activate`, in order. */
  function DeviceList(d: Devices): (r: Devices)
    ensures forall x :: x in r <==> x in d && x != Activate && x != GenericMbr
  {
    Delete(Delete(d, GenericMbr), Activate)
  }

  /** The devices are the ordinary entries that `serialize` writes first. */
  lemma DeviceListIsBody(d: Devices)
    ensures DeviceList(d) == Body(d)
  {
    DeleteCommutes(d, GenericMbr, Activate);
  }

  /** `generic_mbr?`: whether `generic_mbr` is among the specials written at the end. */
  predicate HasGenericMbr(d: Devices): (r: bool)
    ensures r <==> GenericMbr in Specials(d)
  {
    GenericMbr in d
  }

  /** `activate?`: whether `activate` is among the specials written at the end. */
  predicate HasActivate(d: Devices): (r: bool)
    ensures r <==> Activate in Specials(d)
  {
    Activate in d
  }

  /** Sets or clears one special word: appended only if absent, or every occurrence
      removed. */
  function SetSpecial(d: Devices, w: string, enabled: bool): (r: Devices)
    ensures w in r <==> enabled
    ensures forall x :: x != w ==> (x in r <==> x in d)
    ensures enabled && w in d ==> r == d
    ensures enabled && w !in d ==> |r| == |d| + 1 && r[..|d|] == d
    ensures !enabled ==> r == Delete(d, w)
  {
    if enabled then (if w in d then d else d + [w]) else Delete(d, w)
  }

  /** Toggling a special word leaves the devices alone. */
  lemma SetSpecialKeepsDevices(d: Devices, w: string, enabled: bool)
    requires w == Activate || w == GenericMbr
    ensures DeviceList(SetSpecial(d, w, enabled)) == DeviceList(d)
  {
    if enabled && w !in d {
      DeleteAppend(d, [w], GenericMbr);
      DeleteAppend(Delete(d, GenericMbr) + Delete([w], GenericMbr), [], Activate);
      DeleteAppend(Delete(d, GenericMbr), Delete([w], GenericMbr), Activate);
    } else if !enabled {
      DeleteCommutes(d, w, GenericMbr);
      DeleteCommutes(Delete(d, GenericMbr), w, Activate);
      DeleteCommutes(d, GenericMbr, GenericMbr);
      DeleteCommutes(Delete(d, GenericMbr), Activate, Activate);
    }
  }

  /** `generic_mbr=`: the query then answers the value set; the devices and `activate`
      are untouched. */
  function SetGenericMbr(d: Devices, enabled: bool): (r: Devices)
    ensures HasGenericMbr(r) == enabled
    ensures HasActivate(r) == HasActivate(d)
    ensures DeviceList(r) == DeviceList(d)
  {
    SetSpecialKeepsDevices(d, GenericMbr, enabled);
    SetSpecial(d, GenericMbr, enabled)
  }

  /** `activate=`: the query then answers the value set; the devices and `generic_mbr`
      are untouched. */
  function SetActivate(d: Devices, enabled: bool): (r: Devices)
    ensures HasActivate(r) == enabled
    ensures HasGenericMbr(r) == HasGenericMbr(d)
    ensures DeviceList(r) == DeviceList(d)
  {
    SetSpecialKeepsDevices(d, Activate, enabled);
    SetSpecial(d, Activate, enabled)
  }
}

=== FILE: kernel_params.dfy ===
/** The kernel command-line parameter tree of `/etc/default/grub`
    (`Default::KernelParams` and its `ParamTree`).

    A line such as `quiet console=S0 console=S1 vga=0x400` becomes an ordered list of
    records. Edits never delete a record: removal tags it `Remove` (a tombstone) and every
    reader works on the visible view, the records not so tagged. New records are tagged
    `Add` and are positioned by a placer that searches with a matcher. */
module KernelParams {
  import opened Results
  import opened Text

  /** A parameter's value: `Flag` for a bare `key` (Ruby's `true`), `Str` for `key=value`,
      where `key=` gives the empty string and not a flag. */
  datatype Value = Flag | Str(s: string)

  datatype Op = Keep | Add | Remove

  datatype Record = Record(key: string, value: Value, op: Op)

  /** Every record in order, tombstones included (Ruby's `all_data`). */
  datatype ParamTree = ParamTree(records: seq<Record>)

  /** One kernel command line and the `/etc/default/grub` key it is stored under. */
  datatype KernelParams = KernelParams(tree: ParamTree, key: string)

  /** A record selector on key and value. */
  type Matcher = (string, Value) -> bool

  /** Where `add_parameter` puts its new record. The placer classes live outside this
      repository; their effect is fixed here as: next to (or instead of) the first visible
      record the matcher selects, and at the end when nothing is selected. */
  datatype Placer = Append | Before(m: Matcher) | After(m: Matcher) | Replace(m: Matcher)

  /** Result of `parameter(key)`: `false`, `true`, a single string, or every matching value. */
  datatype Lookup = Missing | Flagged | Single(value: string) | Multiple(values: seq<Value>)

  // ---------------------------------------------------------------------------------
  // Parsing and serialising

  /** Index of the first `=` at or after `i`. */
  function IndexOfEq(s: string, i: nat): (r: Option<nat>)
    requires i <= |s|
    ensures r.Some? ==> i <= r.value < |s| && s[r.value] == '=' && '=' !in s[i..r.value]
    ensures r.None? ==> '=' !in s[i..]
    decreases |s| - i
  {
    if i == |s| then None
    else if s[i] == '=' then Some(i)
    else IndexOfEq(s, i + 1)
  }

  /** A token split at its first `=` only (`split("=", 2)`), as a record tagged `keep`. */
  function ParseToken(w: string): (r: Record)
    ensures r.op == Keep
    ensures r.value == Flag <==> '=' !in w
    ensures r.value == Flag ==> r.key == w
    ensures r.value.Str? ==> '=' !in r.key && w == r.key + "=" + r.value.s
  {
    match IndexOfEq(w, 0)
    case None => Record(w, Flag, Keep)
    case Some(k) =>
      assert w == w[..k] + "=" + w[k + 1..];
      Record(w[..k], Str(w[k + 1..]), Keep)
  }

  /** A record as it appears on the command line. */
  function Render(r: Record): string
  {
    match r.value
    case Flag => r.key
    case Str(v) => r.key + "=" + v
  }

  /** A token is split at its first `=`: the key is everything before it and the value
      everything after it, further `=` included. */
  lemma ParseTokenSplit(k: string, v: string)
    requires '=' !in k
    ensures ParseToken(k + "=" + v) == Record(k, Str(v), Keep)
  {
    var w := k + "=" + v;
    var r := ParseToken(w);
    assert w[|k|] == '=';
    assert r.key == w[..|k|] == k;
    assert r.value.s == w[|k| + 1..] == v;
  }

  /** Rendering a parsed token gives the token back. */
  lemma RenderParseToken(w: string)
    ensures Render(ParseToken(w)) == w
  {
  }

  /** `ParamTree.new(line)`: the whitespace-separated tokens of the line (an absent line
      counts as empty), each parsed by `ParseToken`. */
  function NewTree(line: Option<string>): (t: ParamTree)
    ensures forall i :: 0 <= i < |t.records| ==> t.records[i].op == Keep
    ensures |t.records| == |Words(line.GetOr(""))|
    ensures forall i :: 0 <= i < |t.records| ==> t.records[i] == ParseToken(Words(line.GetOr(""))[i])
  {
    var ws := Words(line.GetOr(""));
    ParamTree(seq(|ws|, i requires 0 <= i < |ws| => ParseToken(ws[i])))
  }

  /** The records not tagged `Remove`, in order (`data`). */
  function Data(t: ParamTree): seq<Record>
  {
    Visible(t.records)
  }

  function Visible(rs: seq<Record>): (r: seq<Record>)
    ensures |r| <= |rs|
    ensures forall i :: 0 <= i < |r| ==> r[i].op != Remove
  {
    if |rs| == 0 then []
    else if rs[0].op == Remove then Visible(rs[1..])
    else [rs[0]] + Visible(rs[1..])
  }

  /** The visible records are exactly the records not tagged `Remove`. */
  lemma {:induction false} VisibleMembers(rs: seq<Record>)
    ensures forall x :: x in Visible(rs) <==> x in rs && x.op != Remove
    decreases |rs|
  {
    if |rs| > 0 {
      VisibleMembers(rs[1..]);
      assert rs == [rs[0]] + rs[1..];
    }
  }

  /** `to_string`: the visible records rendered and joined with single spaces. */
  function ToString(t: ParamTree): string
  {
    Join(RenderAll(Data(t)), " ")
  }

  function RenderAll(v: seq<Record>): (r: seq<string>)
    ensures |r| == |v| && forall i :: 0 <= i < |v| ==> r[i] == Render(v[i])
  {
    seq(|v|, i requires 0 <= i < |v| => Render(v[i]))
  }

  /** The records `v` as a fresh parse tags them: all `Keep`. */
  function Kept(v: seq<Record>): (r: seq<Record>)
    ensures |r| == |v|
    ensures forall i :: 0 <= i < |v| ==> r[i] == Record(v[i].key, v[i].value, Keep)
  {
    seq(|v|, i requires 0 <= i < |v| => Record(v[i].key, v[i].value, Keep))
  }

  /** A record that survives being written and parsed again: it renders as one word and
      its key holds no `=`. */
  predicate Rereadable(x: Record)
  {
    IsWord(Render(x)) && '=' !in x.key
  }

  /** A rereadable record reads back as itself, tagged `Keep`. */
  lemma ParseRender(x: Record)
    requires '=' !in x.key
    ensures ParseToken(Render(x)) == Record(x.key, x.value, Keep)
  {
    if x.value.Str? {
      ParseTokenSplit(x.key, x.value.s);
    }
  }

  /** Parsing what `to_string` wrote gives back the visible records in order, each tagged
      `Keep`, when every one of them is rereadable. */
  lemma ParseToString(t: ParamTree)
    requires forall i :: 0 <= i < |Data(t)| ==> Rereadable(Data(t)[i])
    ensures NewTree(Some(ToString(t))).records == Kept(Data(t))
  {
    var v := Data(t);
    var ws := RenderAll(v);
    WordsOfJoin(ws);
    var rs := NewTree(Some(ToString(t))).records;
    forall i | 0 <= i < |v|
      ensures rs[i] == Kept(v)[i]
    {
      ParseRender(v[i]);
    }
  }

  /** `KernelParams.new(line, key)`. */
  function NewKernelParams(line: Option<string>, key: string): (kp: KernelParams)
    ensures kp.key == key
    ensures kp.tree == NewTree(line)
    ensures Data(kp.tree) == kp.tree.records
  {
    var t := NewTree(line);
    VisibleUntagged(t.records);
    KernelParams(t, key)
  }

  /** `serialize`. */
  function Serialize(kp: KernelParams): string
  {
    ToString(kp.tree)
  }

  /** Re-reading a serialised line under the same key gives the visible parameters, in
      order, with nothing tombstoned, when every one of them is rereadable. */
  lemma SerializeReread(kp: KernelParams)
    requires forall i :: 0 <= i < |Data(kp.tree)| ==> Rereadable(Data(kp.tree)[i])
    ensures var again := NewKernelParams(Some(Serialize(kp)), kp.key);
            again.key == kp.key && Data(again.tree) == Kept(Data(kp.tree))
  {
    ParseToString(kp.tree);
  }

  /** `replace(line)`: the state a fresh parse of `line` gives, all earlier records and
      tombstones dropped; the key is kept. */
  function ReplaceLine(kp: KernelParams, line: Option<string>): (r: KernelParams)
    ensures r.key == kp.key
    ensures r.tree == NewTree(line)
    ensures forall i :: 0 <= i < |r.tree.records| ==> r.tree.records[i].op == Keep
  {
    KernelParams(NewTree(line), kp.key)
  }

  /** `empty?`: true exactly when serialising gives the empty string, which is when nothing
      is visible or the only visible record is a flag with an empty key. */
  function IsEmpty(kp: KernelParams): (r: bool)
    ensures r <==> Serialize(kp) == ""
    ensures r <==> (|Data(kp.tree)| == 0
                    || (|Data(kp.tree)| == 1 && Data(kp.tree)[0].key == "" && Data(kp.tree)[0].value == Flag))
  {
    JoinSpaceEmpty(RenderAll(Data(kp.tree)));
    Serialize(kp) == ""
  }

  lemma JoinSpaceEmpty(ss: seq<string>)
    ensures Join(ss, " ") == "" <==> |ss| == 0 || (|ss| == 1 && ss[0] == "")
  {
    if |ss| > 1 {
      assert |Join(ss, " ")| >= 1;
    }
  }

  // ---------------------------------------------------------------------------------
  // Round trip

  lemma {:induction false} VisibleUntagged(rs: seq<Record>)
    requires forall i :: 0 <= i < |rs| ==> rs[i].op != Remove
    ensures Visible(rs) == rs
    decreases |rs|
  {
    if |rs| > 0 {
      VisibleUntagged(rs[1..]);
    }
  }

  /** Serialising a freshly parsed line re-joins its tokens with single spaces. */
  lemma SerializeParse(line: string, key: string)
    ensures Serialize(NewKernelParams(Some(line), key)) == Join(Words(line), " ")
  {
    var kp := NewKernelParams(Some(line), key);
    var ws := Words(line);
    var rendered := RenderAll(Data(kp.tree));
    forall i | 0 <= i < |ws|
      ensures rendered[i] == ws[i]
    {
      RenderParseToken(ws[i]);
    }
    assert rendered == ws;
  }

  /** On a single-space-separated line of tokens, parsing and serialising is the identity. */
  lemma SerializeParseNormalized(ws: seq<string>, key: string)
    requires forall i :: 0 <= i < |ws| ==> IsWord(ws[i])
    ensures Serialize(NewKernelParams(Some(Join(ws, " ")), key)) == Join(ws, " ")
  {
    SerializeParse(Join(ws, " "), key);
    WordsOfJoin(ws);
  }

  /** A parsed line has no record that renders empty, so it is empty exactly when it has
      no token. */
  lemma ParsedEmpty(line: Option<string>, key: string)
    ensures IsEmpty(NewKernelParams(line, key)) <==> Words(line.GetOr("")) == []
  {
    var kp := NewKernelParams(line, key);
    var ws := Words(line.GetOr(""));
    if |ws| == 1 {
      assert kp.tree.records[0] == ParseToken(ws[0]);
    }
  }

  // ---------------------------------------------------------------------------------
  // Lookup

  /** The values of the records carrying `key`, in order (`select` then `map`). */
  function ValuesOf(rs: seq<Record>, key: string): seq<Value>
  {
    if |rs| == 0 then []
    else if rs[0].key == key then [rs[0].value] + ValuesOf(rs[1..], key)
    else ValuesOf(rs[1..], key)
  }

  /** `i` is the one and only position whose record carries `key`. */
  ghost predicate OnlyMatch(rs: seq<Record>, key: string, i: int)
  {
    0 <= i < |rs| && rs[i].key == key && forall j :: 0 <= j < |rs| && j != i ==> rs[j].key != key
  }

  /** How many values the lookup selects: none, one (and which) or several, by how many
      records carry the key. */
  lemma ValuesOfCount(rs: seq<Record>, key: string)
    ensures |ValuesOf(rs, key)| == 0 <==> forall i :: 0 <= i < |rs| ==> rs[i].key != key
    ensures |ValuesOf(rs, key)| == 1 <==> exists i :: OnlyMatch(rs, key, i)
    ensures forall i :: OnlyMatch(rs, key, i) ==> ValuesOf(rs, key) == [rs[i].value]
    ensures |ValuesOf(rs, key)| >= 2 <==>
              exists i, j :: 0 <= i < j < |rs| && rs[i].key == key && rs[j].key == key
  {
    ValuesOfNone(rs, key);
    ValuesOfMany(rs, key);
    forall i | OnlyMatch(rs, key, i)
      ensures ValuesOf(rs, key) == [rs[i].value]
    {
      ValuesOfSingle(rs, key, i);
    }
    if |ValuesOf(rs, key)| == 1 {
      var i :| 0 <= i < |rs| && rs[i].key == key;
      assert OnlyMatch(rs, key, i);
    }
  }

  lemma {:induction false} ValuesOfNone(rs: seq<Record>, key: string)
    ensures |ValuesOf(rs, key)| == 0 <==> forall i :: 0 <= i < |rs| ==> rs[i].key != key
    decreases |rs|
  {
    if |rs| > 0 {
      ValuesOfNone(rs[1..], key);
      assert forall i :: 1 <= i < |rs| ==> rs[i] == rs[1..][i - 1];
    }
  }

  /** Two records carry `key`. */
  ghost predicate TwoMatch(rs: seq<Record>, key: string)
  {
    exists i, j :: 0 <= i < j < |rs| && rs[i].key == key && rs[j].key == key
  }

  lemma {:induction false} ValuesOfMany(rs: seq<Record>, key: string)
    ensures |ValuesOf(rs, key)| >= 2 <==> TwoMatch(rs, key)
    decreases |rs|
  {
    if |rs| > 0 {
      ValuesOfMany(rs[1..], key);
      if rs[0].key == key {
        ValuesOfNone(rs[1..], key);
        ManyAtHead(rs, key);
      } else {
        ManyAfterHead(rs, key);
      }
    }
  }

  /** With `key` at the head, a second value is a record carrying `key` in the tail. */
  lemma ManyAtHead(rs: seq<Record>, key: string)
    requires |rs| > 0 && rs[0].key == key
    requires |ValuesOf(rs[1..], key)| == 0 <==> forall i :: 0 <= i < |rs[1..]| ==> rs[1..][i].key != key
    ensures |ValuesOf(rs, key)| >= 2 <==> TwoMatch(rs, key)
  {
    var tl := rs[1..];
    if TwoMatch(rs, key) {
      var i, j :| 0 <= i < j < |rs| && rs[i].key == key && rs[j].key == key;
      assert tl[j - 1].key == key;
    }
    if |ValuesOf(tl, key)| > 0 {
      var k :| 0 <= k < |tl| && tl[k].key == key;
      assert rs[0].key == key && rs[k + 1].key == key;
    }
  }

  /** Without `key` at the head, the values and the pairs are those of the tail. */
  lemma ManyAfterHead(rs: seq<Record>, key: string)
    requires |rs| > 0 && rs[0].key != key
    requires |ValuesOf(rs[1..], key)| >= 2 <==> TwoMatch(rs[1..], key)
    ensures |ValuesOf(rs, key)| >= 2 <==> TwoMatch(rs, key)
  {
    assert ValuesOf(rs, key) == ValuesOf(rs[1..], key);
    TwoMatchTail(rs, key);
  }

  lemma TwoMatchTail(rs: seq<Record>, key: string)
    requires |rs| > 0 && rs[0].key != key
    ensures TwoMatch(rs, key) <==> TwoMatch(rs[1..], key)
  {
    var tl := rs[1..];
    if TwoMatch(rs, key) {
      var i, j :| 0 <= i < j < |rs| && rs[i].key == key && rs[j].key == key;
      assert tl[i - 1].key == key && tl[j - 1].key == key;
    }
    if TwoMatch(tl, key) {
      var i, j :| 0 <= i < j < |tl| && tl[i].key == key && tl[j].key == key;
      assert rs[i + 1].key == key && rs[j + 1].key == key;
    }
  }

  lemma {:induction false} ValuesOfSingle(rs: seq<Record>, key: string, i: int)
    requires OnlyMatch(rs, key, i)
    ensures ValuesOf(rs, key) == [rs[i].value]
    decreases |rs|
  {
    var tl := rs[1..];
    if i == 0 {
      ValuesOfNone(tl, key);
      assert forall k :: 0 <= k < |tl| ==> tl[k] == rs[k + 1];
    } else {
      assert OnlyMatch(tl, key, i - 1) by {
        assert forall k :: 0 <= k < |tl| ==> tl[k] == rs[k + 1];
      }
      ValuesOfSingle(tl, key, i - 1);
    }
  }

  /** `parameter(key)` over the visible records: `false` when none carries the key, every
      value in order when more than one does, otherwise `true` for a flag and the string for
      a value. */
  function Parameter(kp: KernelParams, key: string): (r: Lookup)
    ensures r == Missing <==> forall i :: 0 <= i < |Data(kp.tree)| ==> Data(kp.tree)[i].key != key
    ensures r == Flagged <==> exists i :: OnlyMatch(Data(kp.tree), key, i) && Data(kp.tree)[i].value == Flag
    ensures r.Single? ==> exists i :: OnlyMatch(Data(kp.tree), key, i) && Data(kp.tree)[i].value == Str(r.value)
    ensures (exists i :: OnlyMatch(Data(kp.tree), key, i) && Data(kp.tree)[i].value.Str?) ==> r.Single?
    ensures r.Multiple? <==>
              exists i, j :: 0 <= i < j < |Data(kp.tree)| && Data(kp.tree)[i].key == key && Data(kp.tree)[j].key == key
    ensures r.Multiple? ==> r.values == ValuesOf(Data(kp.tree), key)
  {
    var vs := ValuesOf(Data(kp.tree), key);
    ValuesOfCount(Data(kp.tree), key);
    if |vs| == 0 then Missing
    else if |vs| > 1 then Multiple(vs)
    else if vs[0] == Flag then Flagged
    else Single(vs[0].s)
  }

  // ---------------------------------------------------------------------------------
  // Editing

  /** A record the matcher selects; tombstones are never selected. */
  predicate Selects(m: Matcher, r: Record)
  {
    r.op != Remove && m(r.key, r.value)
  }

  /** Position of the first selected record. */
  function FirstMatch(rs: seq<Record>, m: Matcher): (r: Option<nat>)
    ensures r.Some? ==> r.value < |rs| && Selects(m, rs[r.value])
    ensures r.Some? ==> forall j :: 0 <= j < r.value ==> !Selects(m, rs[j])
    ensures r.None? ==> forall j :: 0 <= j < |rs| ==> !Selects(m, rs[j])
  {
    if |rs| == 0 then None
    else if Selects(m, rs[0]) then Some(0)
    else match FirstMatch(rs[1..], m)
      case None => None
      case Some(k) => Some(k + 1)
  }

  /** `after` keeps the length, keys, values and order of `before` and only adds tombstones. */
  ghost predicate OnlyTombstoned(before: seq<Record>, after: seq<Record>)
  {
    && |after| == |before|
    && forall i :: 0 <= i < |before| ==>
         after[i].key == before[i].key && after[i].value == before[i].value
         && (after[i].op == before[i].op || after[i].op == Remove)
  }

  /** Where the placer inserts into the full record list: after the last record for
      `Append`, at the first selected record for `Before` and `Replace`, just past it for
      `After`, and at the end when nothing is selected. */
  function InsertionPoint(rs: seq<Record>, p: Placer): (q: nat)
    ensures q <= |rs|
    ensures p.Replace? && FirstMatch(rs, p.m).Some? ==> q < |rs|
  {
    match p
    case Append => |rs|
    case Before(m) => (match FirstMatch(rs, m) case None => |rs| case Some(i) => i)
    case After(m) => (match FirstMatch(rs, m) case None => |rs| case Some(i) => i + 1)
    case Replace(m) => (match FirstMatch(rs, m) case None => |rs| case Some(i) => i)
  }

  /** The insertion point in terms of the records selected: the end for `Append`; for
      `Before` and `Replace` the first selected record, or the end when none is; for `After`
      just past the first selected record, or the end when none is. */
  lemma InsertionPointSelects(rs: seq<Record>, p: Placer)
    ensures var q := InsertionPoint(rs, p);
            && (p.Append? ==> q == |rs|)
            && ((p.Before? || p.Replace?) ==>
                  (forall j :: 0 <= j < q ==> !Selects(p.m, rs[j])) && (q < |rs| ==> Selects(p.m, rs[q])))
            && (p.After? ==>
                  (q == |rs| && forall j :: 0 <= j < |rs| ==> !Selects(p.m, rs[j]))
                  || (0 < q && Selects(p.m, rs[q - 1]) && forall j :: 0 <= j < q - 1 ==> !Selects(p.m, rs[j])))
  {
  }

  /** True when the placer tombstones the record it selected. */
  predicate Replaces(rs: seq<Record>, p: Placer)
  {
    p.Replace? && FirstMatch(rs, p.m).Some?
  }

  /** The full record list after the placer has put `x` in. */
  function Place(rs: seq<Record>, x: Record, p: Placer): seq<Record>
  {
    var q := InsertionPoint(rs, p);
    if Replaces(rs, p) then rs[..q] + [x] + [rs[q].(op := Remove)] + rs[q + 1..]
    else rs[..q] + [x] + rs[q..]
  }

  /** `add_parameter(key, value, placer)`: exactly one new record, tagged `add` and carrying
      the given key and value, enters the list at the insertion point; the old records stay
      in order, and at most one of them becomes a tombstone: the first visible record a
      `Replace` placer's matcher selects. */
  function AddParameter(kp: KernelParams, key: string, value: Value, p: Placer): (r: KernelParams)
    ensures r.key == kp.key
    ensures |r.tree.records| == |kp.tree.records| + 1
    ensures exists q :: 0 <= q < |r.tree.records| && r.tree.records[q] == Record(key, value, Add)
                        && OnlyTombstoned(kp.tree.records, r.tree.records[..q] + r.tree.records[q + 1..])
    ensures !p.Replace? ==> exists q :: 0 <= q < |r.tree.records| && r.tree.records[q] == Record(key, value, Add)
                                        && r.tree.records[..q] + r.tree.records[q + 1..] == kp.tree.records
    ensures var rs, q := kp.tree.records, InsertionPoint(kp.tree.records, p);
            var rest := r.tree.records[..q] + r.tree.records[q + 1..];
            && q < |r.tree.records| && r.tree.records[q] == Record(key, value, Add)
            && |rest| == |rs|
            && (forall i :: 0 <= i < |rs| && i != q ==> rest[i] == rs[i])
            && (q < |rs| && !p.Replace? ==> rest[q] == rs[q])
            && (q < |rs| && p.Replace? ==> Selects(p.m, rs[q]) && rest[q] == rs[q].(op := Remove))
  {
    var rs, x := kp.tree.records, Record(key, value, Add);
    PlacePlaces(rs, x, p);
    KernelParams(ParamTree(Place(rs, x, p)), kp.key)
  }

  /** Wherever the placer lands, `x` sits at the insertion point and the old records survive
      around it unchanged, except the record a `Replace` placer selects, which becomes a
      tombstone. */
  lemma PlacePlaces(rs: seq<Record>, x: Record, p: Placer)
    ensures var out, q := Place(rs, x, p), InsertionPoint(rs, p);
            |out| == |rs| + 1 && q < |out| && out[q] == x
            && OnlyTombstoned(rs, out[..q] + out[q + 1..])
            && (!p.Replace? ==> out[..q] + out[q + 1..] == rs)
    ensures var out, q := Place(rs, x, p), InsertionPoint(rs, p);
            var rest := out[..q] + out[q + 1..];
            && |rest| == |rs|
            && (forall i :: 0 <= i < |rs| && i != q ==> rest[i] == rs[i])
            && (q < |rs| && !p.Replace? ==> rest[q] == rs[q])
            && (q < |rs| && p.Replace? ==> Selects(p.m, rs[q]) && rest[q] == rs[q].(op := Remove))
  {
    if Replaces(rs, p) {
      PlaceReplacing(rs, x, p);
    } else {
      PlaceInserting(rs, x, p);
    }
  }

  /** A replacing placer puts `x` in front of the selected record and tombstones it. */
  lemma PlaceReplacing(rs: seq<Record>, x: Record, p: Placer)
    requires Replaces(rs, p)
    ensures var out, q := Place(rs, x, p), InsertionPoint(rs, p);
            |out| == |rs| + 1 && q < |out| && out[q] == x
            && OnlyTombstoned(rs, out[..q] + out[q + 1..])
    ensures var out, q := Place(rs, x, p), InsertionPoint(rs, p);
            var rest := out[..q] + out[q + 1..];
            && q < |rs| && Selects(p.m, rs[q]) && rest[q] == rs[q].(op := Remove)
            && forall i :: 0 <= i < |rs| && i != q ==> rest[i] == rs[i]
  {
    var out, q := Place(rs, x, p), InsertionPoint(rs, p);
    var rest := out[..q] + out[q + 1..];
    assert rest == rs[..q] + [rs[q].(op := Remove)] + rs[q + 1..];
    InsertionPointSelects(rs, p);
    forall j | 0 <= j < |rs|
      ensures rest[j].key == rs[j].key && rest[j].value == rs[j].value
      ensures rest[j].op == rs[j].op || rest[j].op == Remove
    {
      if j != q {
        assert rest[j] == rs[j];
      }
    }
  }

  /** Any other placer inserts `x` and leaves every old record as it was. */
  lemma PlaceInserting(rs: seq<Record>, x: Record, p: Placer)
    requires !Replaces(rs, p)
    ensures var out, q := Place(rs, x, p), InsertionPoint(rs, p);
            |out| == |rs| + 1 && q < |out| && out[q] == x && out[..q] + out[q + 1..] == rs
            && OnlyTombstoned(rs, out[..q] + out[q + 1..])
  {
    var out, q := Place(rs, x, p), InsertionPoint(rs, p);
    assert out[..q] == rs[..q] && out[q + 1..] == rs[q..];
    assert rs[..q] + rs[q..] == rs;
  }

  /** `remove_parameter(matcher)`: every visible record the matcher selects is tagged
      `remove`; nothing else changes. */
  function RemoveParameter(kp: KernelParams, m: Matcher): (r: KernelParams)
    ensures r.key == kp.key
    ensures OnlyTombstoned(kp.tree.records, r.tree.records)
    ensures forall i :: 0 <= i < |r.tree.records| ==>
              (r.tree.records[i].op == Remove <==>
                 kp.tree.records[i].op == Remove || m(kp.tree.records[i].key, kp.tree.records[i].value))
  {
    var rs := kp.tree.records;
    KernelParams(ParamTree(seq(|rs|, i requires 0 <= i < |rs| =>
                                 if Selects(m, rs[i]) then rs[i].(op := Remove) else rs[i])),
                 kp.key)
  }

  // ---------------------------------------------------------------------------------
  // The visible view after an edit

  /** `v` without the records the matcher selects: the reference for removal. */
  function Without(v: seq<Record>, m: Matcher): (r: seq<Record>)
    ensures forall i :: 0 <= i < |r| ==> !m(r[i].key, r[i].value)
  {
    if |v| == 0 then []
    else if m(v[0].key, v[0].value) then Without(v[1..], m)
    else [v[0]] + Without(v[1..], m)
  }

  /** Removing when nothing is selected keeps every record. */
  lemma {:induction false} WithoutNone(v: seq<Record>, m: Matcher)
    requires forall i :: 0 <= i < |v| ==> !m(v[i].key, v[i].value)
    ensures Without(v, m) == v
    decreases |v|
  {
    if |v| > 0 {
      WithoutNone(v[1..], m);
    }
  }

  /** Removing when exactly the record at `j` is selected drops just that record. */
  lemma {:induction false} WithoutOnly(v: seq<Record>, m: Matcher, j: nat)
    requires j < |v| && m(v[j].key, v[j].value)
    requires forall i :: 0 <= i < |v| && i != j ==> !m(v[i].key, v[i].value)
    ensures Without(v, m) == v[..j] + v[j + 1..]
    decreases |v|
  {
    if j == 0 {
      WithoutNone(v[1..], m);
    } else {
      WithoutOnly(v[1..], m, j - 1);
      assert v[..j] + v[j + 1..] == [v[0]] + (v[1..][..j - 1] + v[1..][j..]);
    }
  }

  /** Where a placer puts `x` in a list without tombstones: the reference for insertion.
      `Replace` drops the selected record instead of keeping it as a tombstone. */
  function PlaceInView(v: seq<Record>, x: Record, p: Placer): seq<Record>
  {
    var j := InsertionPoint(v, p);
    if Replaces(v, p) then v[..j] + [x] + v[j + 1..] else v[..j] + [x] + v[j..]
  }

  lemma {:induction false} VisibleAppend(a: seq<Record>, b: seq<Record>)
    ensures Visible(a + b) == Visible(a) + Visible(b)
    decreases |a|
  {
    if |a| == 0 {
      assert a + b == b;
    } else {
      assert (a + b)[1..] == a[1..] + b;
      VisibleAppend(a[1..], b);
    }
  }

  /** The first selected record of the full list is the first selected record of the
      visible view, at the position its visible predecessors give it. */
  lemma {:induction false} FirstMatchVisible(rs: seq<Record>, m: Matcher)
    ensures FirstMatch(rs, m).None? ==> FirstMatch(Visible(rs), m).None?
    ensures FirstMatch(rs, m).Some? ==>
              FirstMatch(Visible(rs), m) == Some(|Visible(rs[..FirstMatch(rs, m).value])|)
    decreases |rs|
  {
    if |rs| > 0 {
      var x, tl := rs[0], rs[1..];
      FirstMatchVisible(tl, m);
      var v := Visible(tl);
      if Selects(m, x) {
        assert rs[..0] == [];
        assert Visible(rs) == [x] + v;
      } else if x.op == Remove {
        assert Visible(rs) == v;
        if FirstMatch(rs, m).Some? {
          var k := FirstMatch(tl, m).value;
          VisiblePrefixCons(rs, k);
        }
      } else {
        assert Visible(rs) == [x] + v;
        FirstMatchSkip(x, v, m);
        if FirstMatch(rs, m).Some? {
          var k := FirstMatch(tl, m).value;
          VisiblePrefixCons(rs, k);
        }
      }
    }
  }

  /** The search skips an unselected first record. */
  lemma FirstMatchSkip(x: Record, v: seq<Record>, m: Matcher)
    requires !Selects(m, x)
    ensures FirstMatch([x] + v, m) == match FirstMatch(v, m) case None => None case Some(k) => Some(k + 1)
  {
    assert ([x] + v)[1..] == v;
  }

  /** The visible part of a prefix of length `k + 1` is that of the first record followed by
      that of the next `k`. */
  lemma VisiblePrefixCons(rs: seq<Record>, k: nat)
    requires k + 1 <= |rs|
    ensures |Visible(rs[..k + 1])| == (if rs[0].op == Remove then 0 else 1) + |Visible(rs[1..][..k])|
  {
    assert rs[..k + 1] == [rs[0]] + rs[1..][..k];
    VisibleAppend([rs[0]], rs[1..][..k]);
  }

  lemma VisibleAround(a: seq<Record>, y: Record, b: seq<Record>)
    ensures y.op != Remove ==> Visible(a + [y] + b) == Visible(a) + [y] + Visible(b)
    ensures y.op == Remove ==> Visible(a + [y] + b) == Visible(a) + Visible(b)
  {
    VisibleAppend(a + [y], b);
    VisibleAppend(a, [y]);
    assert Visible([y]) == if y.op == Remove then [] else [y];
  }

  /** Inserting a visible record into the full list inserts it into the visible view. */
  lemma VisibleInsert(rs: seq<Record>, q: nat, x: Record)
    requires q <= |rs| && x.op != Remove
    ensures Visible(rs) == Visible(rs[..q]) + Visible(rs[q..])
    ensures Visible(rs[..q] + [x] + rs[q..]) == Visible(rs[..q]) + [x] + Visible(rs[q..])
  {
    assert rs == rs[..q] + rs[q..];
    VisibleAppend(rs[..q], rs[q..]);
    VisibleAround(rs[..q], x, rs[q..]);
  }

  lemma VisibleSplice(a: seq<Record>, x: Record, t: Record, b: seq<Record>)
    requires x.op != Remove && t.op == Remove
    ensures Visible(a + [x] + [t] + b) == Visible(a) + [x] + Visible(b)
  {
    VisibleAround(a + [x], t, b);
    VisibleAround(a, x, []);
    assert a + [x] + [] == a + [x];
  }

  /** Inserting a visible record in front of a record that is then tombstoned replaces
      that record in the visible view. */
  lemma VisibleReplace(rs: seq<Record>, q: nat, x: Record)
    requires q < |rs| && x.op != Remove && rs[q].op != Remove
    ensures Visible(rs) == Visible(rs[..q]) + [rs[q]] + Visible(rs[q + 1..])
    ensures Visible(rs[..q] + [x] + [rs[q].(op := Remove)] + rs[q + 1..])
            == Visible(rs[..q]) + [x] + Visible(rs[q + 1..])
  {
    VisibleAt(rs, q);
    VisibleSplice(rs[..q], x, rs[q].(op := Remove), rs[q + 1..]);
  }

  /** Splitting the full list around a visible record splits the visible view there. */
  lemma VisibleAt(rs: seq<Record>, q: nat)
    requires q < |rs| && rs[q].op != Remove
    ensures Visible(rs) == Visible(rs[..q]) + [rs[q]] + Visible(rs[q + 1..])
  {
    var a, tl := rs[..q], rs[q..];
    assert rs == a + tl;
    VisibleAppend(a, tl);
    assert tl[0] == rs[q] && tl[1..] == rs[q + 1..];
    assert Visible(tl) == [rs[q]] + Visible(rs[q + 1..]);
  }

  /** The insertion point in the full list corresponds to the insertion point in the
      visible view. */
  lemma InsertionPointVisible(rs: seq<Record>, p: Placer)
    ensures |Visible(rs[..InsertionPoint(rs, p)])| == InsertionPoint(Visible(rs), p)
    ensures Replaces(rs, p) <==> Replaces(Visible(rs), p)
  {
    if p.Append? {
      assert rs[..|rs|] == rs;
    } else {
      var v := Visible(rs);
      FirstMatchVisible(rs, p.m);
      match FirstMatch(rs, p.m)
      case None =>
        assert rs[..|rs|] == rs;
        assert FirstMatch(v, p.m).None?;
        assert InsertionPoint(rs, p) == |rs| && InsertionPoint(v, p) == |v|;
      case Some(i) =>
        var j := |Visible(rs[..i])|;
        assert FirstMatch(v, p.m) == Some(j);
        if p.After? {
          VisiblePrefixStep(rs, i);
          assert InsertionPoint(rs, p) == i + 1 && InsertionPoint(v, p) == j + 1;
        } else {
          assert InsertionPoint(rs, p) == i && InsertionPoint(v, p) == j;
        }
    }
  }

  /** A visible record at position `i` adds one to the visible length of the prefix. */
  lemma VisiblePrefixStep(rs: seq<Record>, i: nat)
    requires i < |rs| && rs[i].op != Remove
    ensures |Visible(rs[..i + 1])| == |Visible(rs[..i])| + 1
  {
    assert rs[..i + 1] == rs[..i] + [rs[i]];
    VisibleAppend(rs[..i], [rs[i]]);
  }

  /** After `add_parameter` the visible view is the old view with the new record placed as
      the placer says, searched for in that view. */
  lemma AddParameterVisible(kp: KernelParams, key: string, value: Value, p: Placer)
    ensures Data(AddParameter(kp, key, value, p).tree)
            == PlaceInView(Data(kp.tree), Record(key, value, Add), p)
  {
    var rs := kp.tree.records;
    var x := Record(key, value, Add);
    var q := InsertionPoint(rs, p);
    InsertionPointVisible(rs, p);
    var v := Visible(rs);
    var j := InsertionPoint(v, p);
    if Replaces(rs, p) {
      VisibleReplace(rs, q, x);
      assert v[..j] == Visible(rs[..q]);
      assert v[j + 1..] == Visible(rs[q + 1..]);
    } else {
      VisibleInsert(rs, q, x);
      assert v[..j] == Visible(rs[..q]);
      assert v[j..] == Visible(rs[q..]);
    }
  }

  /** With the default placer the new record is appended to the visible view. */
  lemma AddParameterAppends(kp: KernelParams, key: string, value: Value)
    ensures Data(AddParameter(kp, key, value, Append).tree) == Data(kp.tree) + [Record(key, value, Add)]
  {
    AddParameterVisible(kp, key, value, Append);
  }

  /** After `remove_parameter` the visible view is the old one without the selected
      records, so none of them can be read any more. */
  lemma {:induction false} RemoveParameterVisible(kp: KernelParams, m: Matcher)
    ensures Data(RemoveParameter(kp, m).tree) == Without(Data(kp.tree), m)
    decreases |kp.tree.records|
  {
    var rs := kp.tree.records;
    if |rs| > 0 {
      var tl := KernelParams(ParamTree(rs[1..]), kp.key);
      RemoveParameterVisible(tl, m);
      assert RemoveParameter(kp, m).tree.records[1..] == RemoveParameter(tl, m).tree.records;
    }
  }

  /** Removing with the same matcher a second time changes nothing at all. */
  lemma RemoveParameterIdempotent(kp: KernelParams, m: Matcher)
    ensures RemoveParameter(RemoveParameter(kp, m), m) == RemoveParameter(kp, m)
    ensures Serialize(RemoveParameter(RemoveParameter(kp, m), m)) == Serialize(RemoveParameter(kp, m))
  {
    var once := RemoveParameter(kp, m);
    var twice := RemoveParameter(once, m);
    assert twice.tree.records == once.tree.records;
  }
}

=== FILE: kernel_params_examples.dfy ===
/** The worked example of the `kernel_params` test of `Default`: the lookups on
    `quite console=S0 console=S1 vga=0x400` and the placer edit sequence on it. */
module KernelParamsExamples {
  import opened Results
  import opened Text
  import opened KernelParams

  /** The tokens `console=S0`, `console=S1`, `console=S2` and `vga=0x400`. */
  const ConsoleS0 := "console" + "=" + "S0"
  const ConsoleS1 := "console" + "=" + "S1"
  const ConsoleS2 := "console" + "=" + "S2"
  const Vga := "vga" + "=" + "0x400"

  /** The line `quite console=S0 console=S1 vga=0x400`. */
  const ExampleLine := Join(["quite", ConsoleS0, ConsoleS1, Vga], " ")

  function KeyIs(k: string): Matcher
  {
    (key: string, value: Value) => key == k
  }

  function KeyValueIs(k: string, v: string): Matcher
  {
    (key: string, value: Value) => key == k && value == Str(v)
  }

  lemma ExampleWords()
    ensures Words(ExampleLine) == ["quite", ConsoleS0, ConsoleS1, Vga]
  {
    ExampleIsWords(["quite", ConsoleS0, ConsoleS1, Vga]);
  }

  lemma ExampleIsWords(ws: seq<string>)
    requires ws == ["quite", ConsoleS0, ConsoleS1, Vga]
    ensures Words(Join(ws, " ")) == ws
  {
    assert IsWord(ws[0]) && IsWord(ws[1]) && IsWord(ws[2]) && IsWord(ws[3]);
    WordsOfJoin(ws);
  }

  const ExampleRecords := [Record("quite", Flag, Keep), Record("console", Str("S0"), Keep),
                           Record("console", Str("S1"), Keep), Record("vga", Str("0x400"), Keep)]

  lemma ExampleParse()
    ensures Data(NewKernelParams(Some(ExampleLine), "GRUB_CMDLINE_LINUX_DEFAULT").tree) == ExampleRecords
  {
    var ws := ["quite", ConsoleS0, ConsoleS1, Vga];
    ExampleWords();
    ExampleTokenRecords(ws);
    TreeOfTokens(ExampleLine, ws, ExampleRecords);
  }

  /** A line whose tokens parse to `rs` gives a tree holding `rs`. */
  lemma TreeOfTokens(line: string, ws: seq<string>, rs: seq<Record>)
    requires Words(line) == ws
    requires seq(|ws|, i requires 0 <= i < |ws| => ParseToken(ws[i])) == rs
    ensures NewTree(Some(line)).records == rs
  {
    var t := NewTree(Some(line));
    forall i | 0 <= i < |rs|
      ensures t.records[i] == rs[i]
    {
      assert rs[i] == ParseToken(ws[i]);
    }
  }

  /** The example's tokens parse to the example's records. */
  lemma ExampleTokenRecords(ws: seq<string>)
    requires ws == ["quite", ConsoleS0, ConsoleS1, Vga]
    ensures seq(|ws|, i requires 0 <= i < |ws| => ParseToken(ws[i])) == ExampleRecords
  {
    assert '=' !in "quite" && '=' !in "console" && '=' !in "vga";
    FlagAndThreeSettings("quite", "console", "S0", "console", "S1", "vga", "0x400");
  }

  /** A flag followed by three `key=value` settings parses record by record. */
  lemma FlagAndThreeSettings(f: string, k1: string, v1: string, k2: string, v2: string,
                             k3: string, v3: string)
    requires '=' !in f && '=' !in k1 && '=' !in k2 && '=' !in k3
    ensures var ws := [f, k1 + "=" + v1, k2 + "=" + v2, k3 + "=" + v3];
            seq(|ws|, i requires 0 <= i < |ws| => ParseToken(ws[i]))
            == [Record(f, Flag, Keep), Record(k1, Str(v1), Keep), Record(k2, Str(v2), Keep),
                Record(k3, Str(v3), Keep)]
  {
    var ws := [f, k1 + "=" + v1, k2 + "=" + v2, k3 + "=" + v3];
    var rs := [Record(f, Flag, Keep), Record(k1, Str(v1), Keep), Record(k2, Str(v2), Keep),
               Record(k3, Str(v3), Keep)];
    forall i | 0 <= i < |ws|
      ensures ParseToken(ws[i]) == rs[i]
    {
      if i == 1 {
        ParseTokenSplit(k1, v1);
      } else if i == 2 {
        ParseTokenSplit(k2, v2);
      } else if i == 3 {
        ParseTokenSplit(k3, v3);
      }
    }
    TokensParseTo(ws, rs);
  }

  /** Parsing a list of tokens gives the list of their records. */
  lemma TokensParseTo(ws: seq<string>, rs: seq<Record>)
    requires |ws| == |rs|
    requires forall i :: 0 <= i < |ws| ==> ParseToken(ws[i]) == rs[i]
    ensures seq(|ws|, i requires 0 <= i < |ws| => ParseToken(ws[i])) == rs
  {
  }

  lemma ExampleValues()
    ensures ValuesOf(ExampleRecords, "quite") == [Flag]
    ensures ValuesOf(ExampleRecords, "verbose") == []
    ensures ValuesOf(ExampleRecords, "vga") == [Str("0x400")]
    ensures ValuesOf(ExampleRecords, "console") == [Str("S0"), Str("S1")]
  {
  }

  lemma ExampleLookup()
    ensures var kp := NewKernelParams(Some(ExampleLine), "GRUB_CMDLINE_LINUX_DEFAULT");
            && Parameter(kp, "quite") == Flagged
            && Parameter(kp, "verbose") == Missing
            && Parameter(kp, "vga") == Single("0x400")
            && Parameter(kp, "console") == Multiple([Str("S0"), Str("S1")])
  {
    ExampleParse();
    ExampleValues();
  }

  const ExampleAfterVerbose := [Record("quite", Flag, Keep), Record("verbose", Flag, Add),
                                Record("console", Str("S0"), Keep), Record("console", Str("S1"), Keep),
                                Record("vga", Str("0x400"), Keep)]

  const ExampleWithSilent := ExampleAfterVerbose + [Record("silent", Flag, Add)]

  const ExampleReplaced := [Record("quite", Flag, Keep), Record("verbose", Flag, Add),
                            Record("console", Str("S0"), Keep), Record("console", Str("S2"), Add),
                            Record("vga", Str("0x400"), Keep), Record("silent", Flag, Add)]

  const ExampleFinal := [Record("quite", Flag, Keep), Record("verbose", Flag, Add),
                         Record("console", Str("S0"), Keep), Record("console", Str("S2"), Add),
                         Record("silent", Flag, Add)]

  lemma ExampleAfter(kp: KernelParams)
    requires Data(kp.tree) == ExampleRecords
    ensures Data(AddParameter(kp, "verbose", Flag, After(KeyIs("quite"))).tree) == ExampleAfterVerbose
  {
    var v, m, x := ExampleRecords, KeyIs("quite"), Record("verbose", Flag, Add);
    AddParameterVisible(kp, "verbose", Flag, After(m));
    assert Selects(m, v[0]);
    AfterFirst(v, m, x);
    AfterVerboseView(v, x);
  }

  /** A record placed after the first record, when that one is selected. */
  lemma AfterFirst(v: seq<Record>, m: Matcher, x: Record)
    requires |v| >= 1 && Selects(m, v[0])
    ensures PlaceInView(v, x, After(m)) == [v[0], x] + v[1..]
  {
    assert v[..1] == [v[0]];
  }

  lemma AfterVerboseView(v: seq<Record>, x: Record)
    requires v == ExampleRecords && x == Record("verbose", Flag, Add)
    ensures [v[0], x] + v[1..] == ExampleAfterVerbose
  {
  }

  lemma ExampleAppend(kp: KernelParams)
    requires Data(kp.tree) == ExampleAfterVerbose
    ensures Data(AddParameter(kp, "silent", Flag, Append).tree) == ExampleWithSilent
  {
    AddParameterAppends(kp, "silent", Flag);
  }

  lemma ExampleReplace(kp: KernelParams)
    requires Data(kp.tree) == ExampleWithSilent
    ensures Data(AddParameter(kp, "console", Str("S2"), Replace(KeyValueIs("console", "S1"))).tree)
            == ExampleReplaced
  {
    var v, m, x := ExampleWithSilent, KeyValueIs("console", "S1"), Record("console", Str("S2"), Add);
    AddParameterVisible(kp, "console", Str("S2"), Replace(m));
    assert !Selects(m, v[0]) && !Selects(m, v[1]) && !Selects(m, v[2]) && Selects(m, v[3]);
    FourthSelected(v, m);
    ReplacedView(v, x);
  }

  /** The first selected record is the fourth when the first three are not selected. */
  lemma FourthSelected(v: seq<Record>, m: Matcher)
    requires |v| >= 4 && !Selects(m, v[0]) && !Selects(m, v[1]) && !Selects(m, v[2]) && Selects(m, v[3])
    ensures FirstMatch(v, m) == Some(3)
  {
    assert v[1..][1..] == v[2..] && v[2..][1..] == v[3..];
  }

  lemma ReplacedView(v: seq<Record>, x: Record)
    requires v == ExampleWithSilent && x == Record("console", Str("S2"), Add)
    ensures v[..3] + [x] + v[4..] == ExampleReplaced
  {
  }

  lemma ExampleRemove(kp: KernelParams)
    requires Data(kp.tree) == ExampleReplaced
    ensures Data(RemoveParameter(kp, KeyIs("vga")).tree) == ExampleFinal
  {
    RemoveParameterVisible(kp, KeyIs("vga"));
    RemovedView(ExampleReplaced);
  }

  /** Dropping the `vga` setting from the replaced view leaves the final view. */
  lemma RemovedView(v: seq<Record>)
    requires v == ExampleReplaced
    ensures Without(v, KeyIs("vga")) == ExampleFinal
  {
    var m := KeyIs("vga");
    forall i | 0 <= i < |v| && i != 4
      ensures !m(v[i].key, v[i].value)
    {
      assert |v[i].key| != |"vga"|;
    }
    WithoutOnly(v, m, 4);
    assert v[..4] + v[5..] == ExampleFinal;
  }

  lemma ExampleRendered()
    ensures seq(|ExampleFinal|, i requires 0 <= i < |ExampleFinal| => Render(ExampleFinal[i]))
            == ["quite", "verbose", ConsoleS0, ConsoleS2, "silent"]
  {
    var v := ExampleFinal;
    var rendered := seq(|v|, i requires 0 <= i < |v| => Render(v[i]));
    assert rendered[2] == ConsoleS0;
    assert rendered[3] == ConsoleS2;
  }

  lemma ExampleRender(kp: KernelParams)
    requires Data(kp.tree) == ExampleFinal
    ensures Serialize(kp) == Join(["quite", "verbose", ConsoleS0, ConsoleS2, "silent"], " ")
  {
    ExampleRendered();
  }

  /** The edit sequence of the `kernel_params` test: `verbose` after `quite`, `silent` at
      the end, `console=S1` replaced by `console=S2`, `vga` removed. */
  lemma ExampleEdits()
    ensures var kp0 := NewKernelParams(Some(ExampleLine), "GRUB_CMDLINE_LINUX_DEFAULT");
            var kp1 := AddParameter(kp0, "verbose", Flag, After(KeyIs("quite")));
            var kp2 := AddParameter(kp1, "silent", Flag, Append);
            var kp3 := AddParameter(kp2, "console", Str("S2"), Replace(KeyValueIs("console", "S1")));
            var kp4 := RemoveParameter(kp3, KeyIs("vga"));
            Serialize(kp4) == Join(["quite", "verbose", ConsoleS0, ConsoleS2, "silent"], " ")
  {
    var kp0 := NewKernelParams(Some(ExampleLine), "GRUB_CMDLINE_LINUX_DEFAULT");
    ExampleParse();
    var kp1 := AddParameter(kp0, "verbose", Flag, After(KeyIs("quite")));
    ExampleAfter(kp0);
    var kp2 := AddParameter(kp1, "silent", Flag, Append);
    ExampleAppend(kp1);
    var kp3 := AddParameter(kp2, "console", Str("S2"), Replace(KeyValueIs("console", "S1")));
    ExampleReplace(kp2);
    var kp4 := RemoveParameter(kp3, KeyIs("vga"));
    ExampleRemove(kp3);
    ExampleRender(kp4);
  }
}

=== FILE: results.dfy ===
/** Optional values and error-carrying results shared by the modules of this model.
    Ruby's `nil` becomes `None`; a raised exception becomes `Err`. */
module Results {

  datatype Option<+T> = None | Some(value: T) {

    /** The wrapped value, or `default` when there is none (Ruby's `x || default`). */
    function GetOr(default: T): T
    {
      match this
      case Some(v) => v
      case None => default
    }
  }

  datatype Result<+T, +E> = Ok(value: T) | Err(error: E)
}

=== FILE: terminal.dfy ===
/** The `GRUB_TERMINAL` and `GRUB_SERIAL_COMMAND` accessors of `Default`. The key-value
    file behind them is a map from key to raw value: reading a key is a map lookup and
    writing one is a map update. */
module Terminal {
  import opened Results
  import opened Text

  /** The key-value contents of the defaults file. */
  type Config = map<string, string>

  const TerminalKey := "GRUB_TERMINAL"
  const SerialCommandKey := "GRUB_SERIAL_COMMAND"

  /** The accepted terminal definitions, `serial`, `console` and `gfxterm`. */
  datatype TerminalOption = Serial | Console | Gfxterm

  /** The word naming an option (the symbol's name). */
  function Name(o: TerminalOption): (r: string)
    ensures IsWord(r)
  {
    match o
    case Serial => "serial"
    case Console => "console"
    case Gfxterm => "gfxterm"
  }

  /** The option a word names, if any. */
  function OptionNamed(w: string): (r: Option<TerminalOption>)
    ensures r.Some? ==> Name(r.value) == w
    ensures r.None? ==> forall o :: Name(o) != w
  {
    if w == "serial" then Some(Serial)
    else if w == "console" then Some(Console)
    else if w == "gfxterm" then Some(Gfxterm)
    else None
  }

  lemma OptionNamedName(o: TerminalOption)
    ensures OptionNamed(Name(o)) == Some(o)
  {
  }

  datatype TerminalError =
    | UnknownOption(word: string)   // a word of the stored value names no option
    | InvalidValue                  // a value to store names no option

  /** The options named by `ws`, or the first word that names none. */
  function OptionsNamed(ws: seq<string>): (r: Result<seq<TerminalOption>, TerminalError>)
    ensures r.Ok? <==> forall i :: 0 <= i < |ws| ==> OptionNamed(ws[i]).Some?
    ensures r.Ok? ==> |r.value| == |ws| && forall i :: 0 <= i < |ws| ==> Name(r.value[i]) == ws[i]
    ensures r.Err? ==> exists i :: 0 <= i < |ws| && r.error == UnknownOption(ws[i])
                                   && OptionNamed(ws[i]).None?
                                   && forall j :: 0 <= j < i ==> OptionNamed(ws[j]).Some?
  {
    if |ws| == 0 then Ok([])
    else match OptionNamed(ws[0])
      case None => Err(UnknownOption(ws[0]))
      case Some(o) =>
        match OptionsNamed(ws[1..])
        case Err(e) => Err(e)
        case Ok(os) => Ok([o] + os)
  }

  /** `terminal`: no options when the key is absent or its value is empty, otherwise the
      options its words name, failing on the first word that names none. */
  function ReadTerminal(cfg: Config): (r: Result<Option<seq<TerminalOption>>, TerminalError>)
    ensures (TerminalKey !in cfg || cfg[TerminalKey] == "") ==> r == Ok(None)
    ensures TerminalKey in cfg && cfg[TerminalKey] != "" ==>
              (r.Ok? <==> forall i :: 0 <= i < |Words(cfg[TerminalKey])| ==>
                              OptionNamed(Words(cfg[TerminalKey])[i]).Some?)
    ensures r.Ok? && r.value.Some? ==>
              var ws := Words(cfg[TerminalKey]);
              |r.value.value| == |ws| && forall i :: 0 <= i < |ws| ==> Name(r.value.value[i]) == ws[i]
    ensures r.Err? ==>
              var ws := Words(cfg[TerminalKey]);
              exists k :: 0 <= k < |ws| && r.error == UnknownOption(ws[k]) && OptionNamed(ws[k]).None?
                          && forall j :: 0 <= j < k ==> OptionNamed(ws[j]).Some?
  {
    if TerminalKey !in cfg || cfg[TerminalKey] == "" then Ok(None)
    else match OptionsNamed(Words(cfg[TerminalKey]))
      case Err(e) => Err(e)
      case Ok(os) => Ok(Some(os))
  }

  /** The names of `os`, in order. */
  function Names(os: seq<TerminalOption>): (r: seq<string>)
    ensures |r| == |os| && forall i :: 0 <= i < |os| ==> r[i] == Name(os[i])
  {
    seq(|os|, i requires 0 <= i < |os| => Name(os[i]))
  }

  /** `terminal=`: `None` stands for Ruby's `nil` and means no options. Each value is the
      name of the symbol passed; one that is not an option's name rejects the whole list
      and leaves the file alone, otherwise the names are stored space-separated. */
  function WriteTerminal(cfg: Config, values: Option<seq<string>>): (r: Result<Config, TerminalError>)
    ensures var vs := values.GetOr([]);
            r.Err? <==> exists i :: 0 <= i < |vs| && OptionNamed(vs[i]).None?
    ensures r.Err? ==> r.error == InvalidValue
    ensures r.Ok? ==> r.value.Keys == cfg.Keys + {TerminalKey}
                      && r.value[TerminalKey] == Join(values.GetOr([]), " ")
                      && forall k :: k in cfg && k != TerminalKey ==> r.value[k] == cfg[k]
  {
    var vs := values.GetOr([]);
    if exists i :: 0 <= i < |vs| && OptionNamed(vs[i]).None? then Err(InvalidValue)
    else Ok(cfg[TerminalKey := Join(vs, " ")])
  }

  /** Storing a list of options and reading it back gives the list, except that the empty
      list reads back as no options at all. */
  lemma WriteReadTerminal(cfg: Config, os: seq<TerminalOption>)
    ensures WriteTerminal(cfg, Some(Names(os))).Ok?
    ensures ReadTerminal(WriteTerminal(cfg, Some(Names(os))).value)
            == Ok(if |os| == 0 then None else Some(os))
  {
    WriteNames(cfg, os);
    ReadNames(cfg[TerminalKey := Join(Names(os), " ")], os);
  }

  lemma WriteNames(cfg: Config, os: seq<TerminalOption>)
    ensures WriteTerminal(cfg, Some(Names(os))) == Ok(cfg[TerminalKey := Join(Names(os), " ")])
  {
    var ns := Names(os);
    forall i | 0 <= i < |ns|
      ensures OptionNamed(ns[i]).Some?
    {
      OptionNamedName(os[i]);
    }
  }

  lemma ReadNames(cfg: Config, os: seq<TerminalOption>)
    requires TerminalKey in cfg && cfg[TerminalKey] == Join(Names(os), " ")
    ensures ReadTerminal(cfg) == Ok(if |os| == 0 then None else Some(os))
  {
    if |os| > 0 {
      var ns := Names(os);
      WordsOfJoin(ns);
      JoinHead(ns, " ");
      OptionsNamedNames(os);
    }
  }

  /** Reading the names of options gives the options back. */
  lemma {:induction false} OptionsNamedNames(os: seq<TerminalOption>)
    ensures OptionsNamed(Names(os)) == Ok(os)
    decreases |os|
  {
    if |os| > 0 {
      var ns := Names(os);
      OptionsNamedNames(os[1..]);
      assert ns[1..] == Names(os[1..]);
      OptionNamedName(os[0]);
      OptionsNamedCons(ns, os[0], os[1..]);
      assert [os[0]] + os[1..] == os;
    }
  }

  /** A word naming an option in front of words that convert. */
  lemma OptionsNamedCons(ws: seq<string>, o: TerminalOption, os: seq<TerminalOption>)
    requires |ws| > 0 && OptionNamed(ws[0]) == Some(o) && OptionsNamed(ws[1..]) == Ok(os)
    ensures OptionsNamed(ws) == Ok([o] + os)
  {
  }

  /** A join starts with its first element. */
  lemma JoinHead(ss: seq<string>, sep: string)
    requires |ss| >= 1
    ensures |Join(ss, sep)| >= |ss[0]| && Join(ss, sep)[..|ss[0]|] == ss[0]
  {
  }

  /** `a | b` on arrays: the elements of `a` followed by those of `b`, each kept only at its
      first occurrence. */
  function Union(a: seq<TerminalOption>, b: seq<TerminalOption>): (r: seq<TerminalOption>)
    ensures forall x :: x in r <==> x in a || x in b
    ensures NoDuplicates(r)
    ensures forall i, j :: 0 <= i < j < |r| ==> FirstIndex(a + b, r[i]) < FirstIndex(a + b, r[j])
  {
    Dedup(a + b)
  }

  predicate NoDuplicates(s: seq<TerminalOption>)
  {
    forall i, j :: 0 <= i < j < |s| ==> s[i] != s[j]
  }

  /** `s` with every repeated element dropped, first occurrences kept in order: the
      elements are those of `s`, each once, in the order in which they first appear. */
  function Dedup(s: seq<TerminalOption>): (r: seq<TerminalOption>)
    ensures forall x :: x in r <==> x in s
    ensures NoDuplicates(r)
    ensures forall i, j :: 0 <= i < j < |r| ==> FirstIndex(s, r[i]) < FirstIndex(s, r[j])
    decreases |s|
  {
    if |s| == 0 then []
    else
      var init := Dedup(s[..|s| - 1]);
      var x := s[|s| - 1];
      assert s == s[..|s| - 1] + [x];
      FirstOrderSnoc(s[..|s| - 1], x, init);
      if x in init then init else init + [x]
  }

  /** The position of the first occurrence of `x` in `s`. */
  function FirstIndex(s: seq<TerminalOption>, x: TerminalOption): (k: nat)
    requires x in s
    ensures k < |s| && s[k] == x && forall i :: 0 <= i < k ==> s[i] != x
  {
    if s[0] == x then 0 else FirstIndex(s[1..], x) + 1
  }

  /** A position holding `x` with no `x` before it is the first occurrence. */
  lemma FirstIndexUnique(s: seq<TerminalOption>, x: TerminalOption, k: nat)
    requires k < |s| && s[k] == x && forall i :: 0 <= i < k ==> s[i] != x
    ensures FirstIndex(s, x) == k
  {
  }

  /** Appending `x` moves no first occurrence, and puts the first `x` last when it is new. */
  lemma FirstIndexSnoc(s: seq<TerminalOption>, x: TerminalOption)
    ensures forall y :: y in s ==> FirstIndex(s + [x], y) == FirstIndex(s, y)
    ensures x !in s ==> FirstIndex(s + [x], x) == |s|
  {
    forall y | y in s
      ensures FirstIndex(s + [x], y) == FirstIndex(s, y)
    {
      FirstIndexUnique(s + [x], y, FirstIndex(s, y));
    }
    if x !in s {
      FirstIndexUnique(s + [x], x, |s|);
    }
  }

  /** The first-occurrence order of `init` within `s` carries over to `s + [x]`, and a new
      `x` goes after all of it. */
  lemma FirstOrderSnoc(s: seq<TerminalOption>, x: TerminalOption, init: seq<TerminalOption>)
    requires forall y :: y in init ==> y in s
    requires forall i, j :: 0 <= i < j < |init| ==> FirstIndex(s, init[i]) < FirstIndex(s, init[j])
    ensures forall i, j :: 0 <= i < j < |init| ==> FirstIndex(s + [x], init[i]) < FirstIndex(s + [x], init[j])
    ensures x !in s ==>
              var r := init + [x];
              forall i, j :: 0 <= i < j < |r| ==> FirstIndex(s + [x], r[i]) < FirstIndex(s + [x], r[j])
  {
    FirstIndexSnoc(s, x);
    if x !in s {
      var r := init + [x];
      forall i, j | 0 <= i < j < |r|
        ensures FirstIndex(s + [x], r[i]) < FirstIndex(s + [x], r[j])
      {
        assert r[i] == init[i] && init[i] in s;
        if j < |init| {
          assert r[j] == init[j];
        } else {
          assert FirstIndex(s + [x], r[j]) == |s|;
        }
      }
    }
  }

  /** Appending an element keeps the deduplicated prefix and adds the element only when it
      is new. */
  lemma DedupSnoc(s: seq<TerminalOption>, x: TerminalOption)
    ensures Dedup(s + [x]) == if x in s then Dedup(s) else Dedup(s) + [x]
  {
    assert (s + [x])[..|s|] == s;
  }

  /** A list without duplicates is its own deduplication. */
  lemma {:induction false} DedupOfDistinct(s: seq<TerminalOption>)
    requires NoDuplicates(s)
    ensures Dedup(s) == s
    decreases |s|
  {
    if |s| > 0 {
      var init := s[..|s| - 1];
      DedupOfDistinct(init);
      assert s[|s| - 1] !in init;
      assert init + [s[|s| - 1]] == s;
    }
  }

  /** Adding serial to a list: the list's options each once in first-occurrence order,
      with serial at the end unless it was already there; a list without duplicates keeps
      its order exactly. */
  lemma WithSerial(cur: seq<TerminalOption>)
    ensures Serial in Union(cur, [Serial])
    ensures forall o :: o in Union(cur, [Serial]) <==> o in cur || o == Serial
    ensures Union(cur, [Serial]) == if Serial in cur then Dedup(cur) else Dedup(cur) + [Serial]
    ensures NoDuplicates(cur) ==>
              Union(cur, [Serial]) == if Serial in cur then cur else cur + [Serial]
  {
    DedupSnoc(cur, Serial);
    if NoDuplicates(cur) {
      DedupOfDistinct(cur);
    }
  }

  /** `serial_console=`: adds serial to the terminal options (treating no options as none)
      and stores the serial command. A stored terminal value that does not read fails the
      whole call and changes nothing. */
  function SetSerialConsole(cfg: Config, value: string): (r: Result<Config, TerminalError>)
    ensures r.Err? <==> ReadTerminal(cfg).Err?
    ensures r.Err? ==> r == Err(ReadTerminal(cfg).error)
    ensures r.Ok? ==>
              var cur := ReadTerminal(cfg).value.GetOr([]);
              && r.value.Keys == cfg.Keys + {TerminalKey, SerialCommandKey}
              && r.value[SerialCommandKey] == value
              && r.value[TerminalKey] == Join(Names(Union(cur, [Serial])), " ")
              && ReadTerminal(r.value) == Ok(Some(Union(cur, [Serial])))
              && forall k :: k in cfg && k != TerminalKey && k != SerialCommandKey ==> r.value[k] == cfg[k]
  {
    match ReadTerminal(cfg)
    case Err(e) => Err(e)
    case Ok(cur) =>
      var os := Union(cur.GetOr([]), [Serial]);
      assert os != [] by { assert Serial in os; }
      SerialWritten(cfg, os, value);
      Ok(WriteTerminal(cfg, Some(Names(os))).value[SerialCommandKey := value])
  }

  /** Storing non-empty options and then the serial command: the options still read back. */
  lemma SerialWritten(cfg: Config, os: seq<TerminalOption>, value: string)
    requires os != []
    ensures WriteTerminal(cfg, Some(Names(os))).Ok?
    ensures var r := WriteTerminal(cfg, Some(Names(os))).value[SerialCommandKey := value];
            && r.Keys == cfg.Keys + {TerminalKey, SerialCommandKey}
            && r[SerialCommandKey] == value
            && r[TerminalKey] == Join(Names(os), " ")
            && ReadTerminal(r) == Ok(Some(os))
            && forall k :: k in cfg && k != TerminalKey && k != SerialCommandKey ==> r[k] == cfg[k]
  {
    var line := Join(Names(os), " ");
    WriteNames(cfg, os);
    StoreBoth(cfg, line, value);
    ReadNames(cfg[TerminalKey := line][SerialCommandKey := value], os);
  }

  /** Storing the terminal line and then the serial command. */
  lemma StoreBoth(cfg: Config, line: string, value: string)
    ensures var r := cfg[TerminalKey := line][SerialCommandKey := value];
            && r.Keys == cfg.Keys + {TerminalKey, SerialCommandKey}
            && r[TerminalKey] == line && r[SerialCommandKey] == value
            && forall k :: k in cfg && k != TerminalKey && k != SerialCommandKey ==> r[k] == cfg[k]
  {
    assert |TerminalKey| != |SerialCommandKey|;
  }

  /** `serial_console`: the stored serial command, if any. */
  function SerialConsole(cfg: Config): (r: Option<string>)
    ensures r.Some? <==> SerialCommandKey in cfg
    ensures r.Some? ==> r.value == cfg[SerialCommandKey]
  {
    if SerialCommandKey in cfg then Some(cfg[SerialCommandKey]) else None
  }
}

=== FILE: text.dfy ===
/** Ruby string primitives the grub2 models rely on, written out character by character:
    whitespace splitting (`split(/\s/)` followed by `reject(&:empty?)`, which is also what
    the argument-less `String#split` yields), `Array#join`, `String#lines` and `String#strip`. */
module Text {

  /** Ruby's `\s` and the whitespace of an argument-less `split`: space, tab, line feed,
      vertical tab, form feed and carriage return. */
  predicate IsSpace(c: char)
  {
    c == ' ' || c == '\t' || c == '\n' || c == '\U{000B}' || c == '\U{000C}' || c == '\r'
  }

  /** Characters `String#strip` removes at either end: the whitespace above and NUL. */
  predicate IsStripChar(c: char)
  {
    IsSpace(c) || c == '\0'
  }

  predicate NoSpace(s: string)
  {
    forall i :: 0 <= i < |s| ==> !IsSpace(s[i])
  }

  /** A non-empty run of non-whitespace characters. */
  predicate IsWord(w: string)
  {
    |w| > 0 && NoSpace(w)
  }

  /** `s` with every whitespace character dropped. */
  function RemoveSpace(s: string): string
  {
    if |s| == 0 then ""
    else if IsSpace(s[0]) then RemoveSpace(s[1..])
    else [s[0]] + RemoveSpace(s[1..])
  }

  function Concat(ss: seq<string>): string
  {
    if |ss| == 0 then "" else ss[0] + Concat(ss[1..])
  }

  /** `Array#join(sep)`. */
  function Join(ss: seq<string>, sep: string): string
  {
    if |ss| == 0 then ""
    else if |ss| == 1 then ss[0]
    else ss[0] + sep + Join(ss[1..], sep)
  }

  /** The pieces between single whitespace characters, empty pieces included
      (`split(/\s/)`; the trailing empty pieces Ruby drops are dropped by `NonEmpty` anyway). */
  function SplitSpace(s: string): (r: seq<string>)
    ensures |r| >= 1
    ensures forall i :: 0 <= i < |r| ==> NoSpace(r[i])
    ensures Concat(r) == RemoveSpace(s)
  {
    if |s| == 0 then [""]
    else if IsSpace(s[0]) then [""] + SplitSpace(s[1..])
    else
      var rest := SplitSpace(s[1..]);
      assert Concat(rest) == rest[0] + Concat(rest[1..]);
      [[s[0]] + rest[0]] + rest[1..]
  }

  /** `reject(&:empty?)`. */
  function NonEmpty(ss: seq<string>): (r: seq<string>)
    ensures forall i :: 0 <= i < |r| ==> |r[i]| > 0
    ensures forall x :: x in r <==> x in ss && |x| > 0
    ensures Concat(r) == Concat(ss)
  {
    if |ss| == 0 then []
    else if |ss[0]| == 0 then NonEmpty(ss[1..])
    else [ss[0]] + NonEmpty(ss[1..])
  }

  /** The maximal runs of non-whitespace characters of `s`, in order. */
  function Words(s: string): (r: seq<string>)
    ensures forall i :: 0 <= i < |r| ==> IsWord(r[i])
    ensures Concat(r) == RemoveSpace(s)
  {
    var r := NonEmpty(SplitSpace(s));
    assert forall i :: 0 <= i < |r| ==> r[i] in SplitSpace(s);
    r
  }

  /** A non-empty sequence is its head in front of its tail, also when more follows. */
  lemma HeadTail<T>(a: seq<T>, b: seq<T>)
    requires |a| > 0
    ensures a == [a[0]] + a[1..] && a + b == [a[0]] + (a[1..] + b)
  {
  }

  lemma AppendAssoc<T>(a: seq<T>, b: seq<T>, c: seq<T>)
    ensures (a + b) + c == a + (b + c)
  {
  }

  /** Filtering a concatenation filters both parts, in order. */
  lemma {:induction false} NonEmptyAppend(a: seq<string>, b: seq<string>)
    ensures NonEmpty(a + b) == NonEmpty(a) + NonEmpty(b)
    decreases |a|
  {
    if |a| == 0 {
      assert a + b == b;
    } else {
      var x, t := a[0], a[1..];
      var keep := if |x| == 0 then [] else [x];
      HeadTail(a, b);
      NonEmptyCons(x, t + b);
      NonEmptyCons(x, t);
      NonEmptyAppend(t, b);
      AppendAssoc(keep, NonEmpty(t), NonEmpty(b));
    }
  }

  /** Filtering keeps or drops the first piece and filters the rest. */
  lemma NonEmptyCons(x: string, t: seq<string>)
    ensures NonEmpty([x] + t) == (if |x| == 0 then [] else [x]) + NonEmpty(t)
  {
    assert ([x] + t)[1..] == t;
  }

  /** A single piece is kept exactly when it is non-empty. */
  lemma NonEmptySingle(x: string)
    ensures NonEmpty([x]) == if |x| == 0 then [] else [x]
  {
    assert [x][1..] == [];
  }

  /** The text without characters has no words. */
  lemma WordsEmpty()
    ensures Words("") == []
  {
    assert SplitSpace("") == [""];
    NonEmptySingle("");
  }

  /** A single word is its own only word. */
  lemma WordsOfWord(w: string)
    requires IsWord(w)
    ensures Words(w) == [w]
  {
    SplitSpaceNoSpace(w);
    NonEmptySingle(w);
  }

  /** Any whitespace character separates: the words on either side of it are the words of
      the two parts. */
  lemma WordsSplit(a: string, c: char, b: string)
    requires IsSpace(c)
    ensures Words(a + [c] + b) == Words(a) + Words(b)
  {
    SplitSpaceAt(a, c, b);
    NonEmptyAppend(SplitSpace(a), SplitSpace(b));
  }

  lemma {:induction false} SplitSpaceAt(a: string, c: char, b: string)
    requires IsSpace(c)
    ensures SplitSpace(a + [c] + b) == SplitSpace(a) + SplitSpace(b)
    decreases |a|
  {
    if |a| == 0 {
      EmptyPrefix(a, [c] + b);
      AppendAssoc(a, [c], b);
      SplitSpaceSpace(c, b);
    } else {
      var x, t := a[0], a[1..];
      HeadTail(a, [c] + b);
      AppendAssoc(a, [c], b);
      AppendAssoc(t, [c], b);
      SplitSpaceAt(t, c, b);
      if IsSpace(x) {
        SplitSpaceSpace(x, t + [c] + b);
        SplitSpaceSpace(x, t);
        AppendAssoc([""], SplitSpace(t), SplitSpace(b));
      } else {
        SplitSpaceGlue(x, t + [c] + b);
        SplitSpaceGlue(x, t);
        GlueHead([x], SplitSpace(t), SplitSpace(b));
      }
    }
  }

  lemma EmptyPrefix<T>(a: seq<T>, b: seq<T>)
    requires |a| == 0
    ensures a + b == b
  {
  }

  /** A whitespace character starts a new piece. */
  lemma SplitSpaceSpace(x: char, t: string)
    requires IsSpace(x)
    ensures SplitSpace([x] + t) == [""] + SplitSpace(t)
  {
    assert ([x] + t)[1..] == t;
  }

  /** Any other character extends the first piece of the rest. */
  lemma SplitSpaceGlue(x: char, t: string)
    requires !IsSpace(x)
    ensures SplitSpace([x] + t) == [[x] + SplitSpace(t)[0]] + SplitSpace(t)[1..]
  {
    assert ([x] + t)[1..] == t;
  }

  /** Gluing a prefix onto the first piece commutes with appending more pieces. */
  lemma GlueHead(p: string, ra: seq<string>, rb: seq<string>)
    requires |ra| >= 1
    ensures [p + (ra + rb)[0]] + (ra + rb)[1..] == ([p + ra[0]] + ra[1..]) + rb
  {
    assert (ra + rb)[0] == ra[0];
    assert (ra + rb)[1..] == ra[1..] + rb;
  }

  lemma {:induction false} SplitSpaceNoSpace(a: string)
    requires NoSpace(a)
    ensures SplitSpace(a) == [a]
    decreases |a|
  {
    if |a| > 0 {
      SplitSpaceNoSpace(a[1..]);
      assert [a[0]] + a[1..] == a;
    }
  }

  lemma SplitSpaceAfterWord(a: string, b: string)
    requires NoSpace(a)
    ensures SplitSpace(a + " " + b) == [a] + SplitSpace(b)
  {
    SplitSpaceAt(a, ' ', b);
    SplitSpaceNoSpace(a);
  }

  lemma {:induction false} SplitSpaceOfJoin(ws: seq<string>)
    requires |ws| >= 1
    requires forall i :: 0 <= i < |ws| ==> IsWord(ws[i])
    ensures SplitSpace(Join(ws, " ")) == ws
    decreases |ws|
  {
    if |ws| == 1 {
      SplitSpaceNoSpace(ws[0]);
    } else {
      SplitSpaceOfJoin(ws[1..]);
      SplitSpaceAfterWord(ws[0], Join(ws[1..], " "));
    }
  }

  lemma {:induction false} NonEmptyOfWords(ws: seq<string>)
    requires forall i :: 0 <= i < |ws| ==> |ws[i]| > 0
    ensures NonEmpty(ws) == ws
    decreases |ws|
  {
    if |ws| > 0 {
      NonEmptyOfWords(ws[1..]);
    }
  }

  /** Splitting a single-space-joined list of words gives the words back. */
  lemma WordsOfJoin(ws: seq<string>)
    requires forall i :: 0 <= i < |ws| ==> IsWord(ws[i])
    ensures Words(Join(ws, " ")) == ws
  {
    if |ws| > 0 {
      SplitSpaceOfJoin(ws);
      NonEmptyOfWords(ws);
    }
  }

  /** Joining one more element adds the separator and that element at the end. */
  lemma {:induction false} JoinSnoc(ss: seq<string>, x: string, sep: string)
    ensures Join(ss + [x], sep) == if |ss| == 0 then x else Join(ss, sep) + sep + x
    decreases |ss|
  {
    if |ss| > 1 {
      assert (ss + [x])[1..] == ss[1..] + [x];
      JoinSnoc(ss[1..], x, sep);
    } else if |ss| == 1 {
      assert (ss + [x])[1..] == [x];
    }
  }

  /** Index just past the first line feed at or after `i`, or `|s|` when there is none. */
  function LineEnd(s: string, i: nat): (j: nat)
    requires i <= |s|
    ensures i <= j <= |s|
    ensures forall k :: i <= k < j - 1 ==> s[k] != '\n'
    ensures j < |s| ==> i < j && s[j - 1] == '\n'
    ensures j == |s| && i < j ==> s[j - 1] == '\n' || '\n' !in s[i..]
    decreases |s| - i
  {
    if i == |s| then |s|
    else if s[i] == '\n' then i + 1
    else LineEnd(s, i + 1)
  }

  /** A line as `String#lines` produces it: non-empty, and a line feed, if any, only as
      its last character. */
  predicate IsLine(l: string)
  {
    |l| > 0 && forall k :: 0 <= k < |l| - 1 ==> l[k] != '\n'
  }

  /** `String#lines`: `s` cut after every line feed; a last line without one is kept. */
  function Lines(s: string): (r: seq<string>)
    ensures Concat(r) == s
    ensures forall i :: 0 <= i < |r| ==> IsLine(r[i]) && (i < |r| - 1 ==> r[i][|r[i]| - 1] == '\n')
    decreases |s|
  {
    if |s| == 0 then []
    else
      var n := LineEnd(s, 0);
      assert s[..n] + s[n..] == s;
      [s[..n]] + Lines(s[n..])
  }

  /** Newline-terminated lines without inner line feeds are cut back exactly. */
  lemma {:induction false} LinesOfTerminated(xs: seq<string>)
    requires forall i :: 0 <= i < |xs| ==> '\n' !in xs[i]
    ensures Lines(Concat(Terminated(xs))) == Terminated(xs)
    decreases |xs|
  {
    if |xs| > 0 {
      var s := Concat(Terminated(xs));
      var l := xs[0] + "\n";
      assert Terminated(xs)[1..] == Terminated(xs[1..]);
      assert s == l + Concat(Terminated(xs[1..]));
      LineEndAfter(s, xs[0]);
      assert s[..|l|] == l;
      assert s[|l|..] == Concat(Terminated(xs[1..]));
      LinesOfTerminated(xs[1..]);
    }
  }

  /** A line without a line feed followed by one is the first line; the rest is split
      the same way. */
  lemma LinesCons(l: string, rest: string)
    requires '\n' !in l
    ensures Lines(l + "\n" + rest) == [l + "\n"] + Lines(rest)
  {
    var s := l + "\n" + rest;
    assert s[..|l|] == l && s[|l|] == '\n';
    LineEndAfter(s, l);
    assert s[..|l| + 1] == l + "\n";
    assert s[|l| + 1..] == rest;
  }

  /** A last line without a line feed is kept as it is. */
  lemma LinesLast(l: string)
    requires '\n' !in l
    ensures Lines(l) == if |l| == 0 then [] else [l]
  {
    if |l| > 0 {
      assert LineEnd(l, 0) == |l|;
      assert l[..|l|] == l;
      assert Lines(l[|l|..]) == [];
    }
  }

  lemma LineEndAfter(s: string, x: string)
    requires '\n' !in x
    requires |s| > |x| && s[..|x|] == x && s[|x|] == '\n'
    ensures LineEnd(s, 0) == |x| + 1
  {
  }

  /** Every element followed by a line feed. */
  function Terminated(xs: seq<string>): (r: seq<string>)
    ensures |r| == |xs|
    ensures forall i :: 0 <= i < |xs| ==> r[i] == xs[i] + "\n"
  {
    if |xs| == 0 then [] else [xs[0] + "\n"] + Terminated(xs[1..])
  }

  /** Joining with line feeds and ending with one line feed is terminating each element,
      unless the join is empty. */
  lemma {:induction false} JoinNewlines(xs: seq<string>)
    requires |xs| >= 1
    ensures Join(xs, "\n") + "\n" == Concat(Terminated(xs))
    decreases |xs|
  {
    assert Terminated(xs)[1..] == Terminated(xs[1..]);
    if |xs| == 1 {
      assert Terminated(xs) == [xs[0] + "\n"];
    } else {
      JoinNewlines(xs[1..]);
    }
  }

  lemma {:induction false} ConcatAppend(a: seq<string>, b: seq<string>)
    ensures Concat(a + b) == Concat(a) + Concat(b)
    decreases |a|
  {
    if |a| > 0 {
      assert (a + b)[1..] == a[1..] + b;
      ConcatAppend(a[1..], b);
    } else {
      assert a + b == b;
    }
  }

  /** `lstrip`: the suffix left after dropping leading strip characters. */
  function StripLeft(s: string): (r: string)
    ensures |r| <= |s| && r == s[|s| - |r|..]
    ensures forall i :: 0 <= i < |s| - |r| ==> IsStripChar(s[i])
    ensures |r| == 0 || !IsStripChar(r[0])
  {
    if |s| > 0 && IsStripChar(s[0]) then StripLeft(s[1..]) else s
  }

  /** `rstrip`: the prefix left after dropping trailing strip characters. */
  function StripRight(s: string): (r: string)
    ensures |r| <= |s| && r == s[..|r|]
    ensures forall i :: |r| <= i < |s| ==> IsStripChar(s[i])
    ensures |r| == 0 || !IsStripChar(r[|r| - 1])
  {
    if |s| > 0 && IsStripChar(s[|s| - 1]) then StripRight(s[..|s| - 1]) else s
  }

  /** `String#strip`. */
  function Strip(s: string): string
  {
    StripRight(StripLeft(s))
  }

  /** A strip character at the end is dropped with the rest of the trailing run. */
  lemma StripSnoc(l: string, c: char)
    requires IsStripChar(c)
    ensures Strip(l + [c]) == Strip(l)
  {
    StripLeftSnoc(l, c);
    var y := StripLeft(l);
    if |y| > 0 {
      assert (y + [c])[..|y|] == y;
    }
  }

  lemma {:induction false} StripLeftSnoc(l: string, c: char)
    requires IsStripChar(c)
    ensures StripLeft(l + [c]) == if |StripLeft(l)| == 0 then [] else StripLeft(l) + [c]
    decreases |l|
  {
    if |l| == 0 {
      assert l + [c] == [c];
      assert [c][1..] == [];
    } else {
      HeadTail(l, [c]);
      if IsStripChar(l[0]) {
        StripLeftSnoc(l[1..], c);
      }
    }
  }

  /** A string with no strip characters at its ends is left alone by `strip`. */
  lemma StripUnpadded(x: string)
    requires |x| == 0 || (!IsStripChar(x[0]) && !IsStripChar(x[|x| - 1]))
    ensures Strip(x) == x
  {
  }

  /** Stripping a line drops its line feed. */
  lemma StripTerminated(x: string)
    requires |x| == 0 || (!IsStripChar(x[0]) && !IsStripChar(x[|x| - 1]))
    ensures Strip(x + "\n") == x
  {
    if |x| == 0 {
      assert StripLeft("\n") == "";
    } else {
      assert StripLeft(x + "\n") == x + "\n";
      assert StripRight(x + "\n") == StripRight(x);
    }
  }
}
